=== FILE: README.md ===
# DDP client session engine — a Dafny model

This project models the protocol session engine of a DDP (Distributed Data Protocol) client
as pure state-transition functions over immutable values. It covers five parts:

- the subscription registry reducer (`SUBSCRIBE`, `UNSUBSCRIBE`, `SUB`, `UNSUB`, `NOSUB`, `READY`, `CONNECT`);
- the client's own bookkeeping: the session-wide id counter, error normalisation, the socket
  registry behind `open`/`close`/`send`, the reopen timer and its guard, the default timeouts
  and the dispatch sequence of `fetch`;
- the in-memory key/value `Storage` that backs resume tokens;
- the per-socket connection state machine with its FIFO queue of method calls, replayed on
  `CONNECTED`, plus the ping/pong reply;
- the query lifecycle: dedup by `(name, params, socketId)`, create-then-call, result to update,
  reference-counted release with a 30 000 ms cleanup timer, and refetch on reconnect or on demand.

Timers run on a virtual clock. Each store keeps an explicit list of pending timers, and
`Advance`/`Tick` move time forward and fire the due timers in order. Transports are
represented only by the effects asked of them (`Opened`, `Sent`, `Closed`). The redux store
is a value holding the reducer state plus the log of actions that reached the reducer.

Files, one module each: `wrappers.dfy` (Option/Result), `values.dfy` (the JavaScript value
kinds the client branches on), `decimal.dfy` (decimal rendering of the counter),
`client.dfy`, `sockets.dfy`, `storage.dfy`, `subscriptions.dfy`, `connection.dfy`,
`queries.dfy`.

Two modules are specified from their test suites: the connection module (reducer and middleware, from
`src/modules/connection.test.js`) and the query module (reducer and middleware, from
`src/modules/queries/middleware.test.js`). Where a test leaves a choice open, the model makes
an assumption of its own. Each such assumption is listed under "Left out".

Where the code behaves in a way a reader might not expect, the model follows the code literally:
- `UNSUBSCRIBE` decrements `users` even below zero (`(users || 0) - 1`). There is no floor at
  zero.
- `SUBSCRIBE` on an id with no record throws. The reducer reads `state[id].users` without a
  guard, so the model returns `Failure`.
- On `CONNECT` the subscription reducer only marks ready subscriptions `Restoring`. Re-sending
  the `sub` messages happens elsewhere.

## Model

| member | source | states |
|---|---|---|
| Subscriptions.OnSubscribe | src/modules/subscriptions/reducer.js:19-26 | users of the id grow by exactly one, a missing count reads as 0, the rest of the record and every other entry are unchanged; an unregistered id throws |
| Subscriptions.OnUnsubscribe | src/modules/subscriptions/reducer.js:27-36 | a registered id loses one user (no floor at zero), everything else unchanged; an absent id returns the state itself |
| Subscriptions.OnSub | src/modules/subscriptions/reducer.js:37-49 | installs a fresh Pending record with the given id, name and params, replacing any prior one; it gets a socket id exactly when `meta.socketId` is present and non-empty; other entries untouched |
| Subscriptions.OnUnsub | src/modules/subscriptions/reducer.js:50-51 | removes exactly the given id and keeps every other entry |
| Subscriptions.OnNoSub | src/modules/subscriptions/reducer.js:52-64 | the matching entry becomes Ready with the payload's error; an absent id leaves the map unchanged; no key is ever added |
| Subscriptions.OnReady | src/modules/subscriptions/reducer.js:65-76 | every registered id listed in `subs` becomes Ready, all others unchanged, no key added |
| Subscriptions.OnConnect | src/modules/subscriptions/reducer.js:77-89 | exactly the Ready entries of the connecting socket become Restoring; a missing `meta.socketId` matches the entries without a socket id |
| Subscriptions.Reduce | src/modules/subscriptions/reducer.js:17-93 | only `SUBSCRIBE` of an unknown id fails; an unrecognised action returns the state unchanged |
| Subscriptions.SubscribeThenUnsubscribe | src/modules/subscriptions/reducer.js:19-36 | subscribe then unsubscribe restores the user count, and the whole registry when the count was present |
| Subscriptions.SubThenUnsub | src/modules/subscriptions/reducer.js:37-51 | `sub` followed by `unsub` of the same id leaves the registry minus that id |
| Subscriptions.ReadyIdempotent | src/modules/subscriptions/reducer.js:65-76 | applying the same `ready` twice equals applying it once |
| Subscriptions.ReconnectRestoresSubscription | src/modules/subscriptions/reducer.js:37-89 | sub, ready, connect, ready: Ready, then Restoring, then the same Ready record again |
| Subscriptions.ConnectsOfDistinctSocketsCommute | src/modules/subscriptions/reducer.js:77-89 | connects of two different sockets commute, since each touches only its own socket's entries |
| Subscriptions.ServerRepliesKeepIdentity | src/modules/subscriptions/reducer.js:52-89 | `ready`, `nosub` and `connect` never add or drop keys and never change id, name, params, socket id or users |
| Decimal.ParseToDecimal | ddp-redux/src/DDPClient.js:126-129 | reading back the decimal string of the counter yields the counter |
| Decimal.ToDecimalIsNumeral | ddp-redux/src/DDPClient.js:126-129 | the rendered id is a canonical numeral with no leading zero |
| Decimal.ToDecimalInjective | ddp-redux/src/DDPClient.js:126-129 | two counter values render to the same string exactly when they are equal |
| Client.NextUniqueId | ddp-redux/src/DDPClient.js:126-129 | the counter grows by one and the id returned is a numeral that reads back as the new counter |
| Client.IdsStrictlyIncrease | ddp-redux/src/DDPClient.js:126-129 | ids from successive calls read back as strictly increasing numbers, hence pairwise distinct |
| Client.ToDDPError | ddp-redux/src/DDPClient.js:163-177 | falsy gives null (and only falsy does); a DDPError is returned as is; an object is copied field by field; a non-empty string becomes `{error: string}`; anything else an empty error |
| Client.NormaliseIsIdempotent | ddp-redux/src/DDPClient.js:163-177 | normalising an already-normalised error, in plain-object or instance form, yields it back |
| Client.DefaultTimeouts | ddp-redux/src/DDPClient.js:233-235 | flush 100 ms, query cleanup 30000 ms, subscription cleanup 30000 ms |
| Client.Fetch | ddp-redux/src/DDPClient.js:214-230 | first an update with null, then the method call, then an update carrying `{result}` on success or `{error}` on failure; when dispatching the `{result}` update throws, an `{error}` update follows it |
| Client.FetchRevealsSettlement | ddp-redux/src/DDPClient.js:214-230 | the dispatched sequence, of two, three or four actions, determines how the call settled (including a failure of the success update itself), holds exactly one method call in second place, and every action is for the given query |
| Sockets.Open | ddp-redux/src/DDPClient.js:59-88 | throws exactly when the socket id is registered; otherwise registers a fresh transport against the endpoint and returns the socket id |
| Sockets.Close | ddp-redux/src/DDPClient.js:90-96 | removes the entry and closes its transport when present, a no-op otherwise |
| Sockets.Send | ddp-redux/src/DDPClient.js:52-57 | a message to a registered id goes to its transport; to an unregistered id nothing happens |
| Sockets.OnTransportClose | ddp-redux/src/DDPClient.js:75-85 | a transport close schedules a reopen 5000 ms later under the same id and endpoint |
| Sockets.Fire | ddp-redux/src/DDPClient.js:76-84 | a due reopen acts only if its socket is still registered, replacing the entry with a fresh transport to the same endpoint; otherwise nothing changes |
| Sockets.Advance | ddp-redux/src/DDPClient.js:76-84 | moving the clock only appends effects, never reuses a handle, keeps the registry invariant (fresh handles, timers in order) and leaves no due timer pending; what a firing does is stated by `Sockets.AdvanceFiresDueTimer` |
| Sockets.AdvanceFiresDueTimer | ddp-redux/src/DDPClient.js:76-84 | a due reopen whose socket is still registered, and which is that socket's only due reopen, leaves the socket on a fresh transport to the timer's endpoint, with that opening among the effects |
| Sockets.ClosedStaysClosed | ddp-redux/src/DDPClient.js:76-96 | after an explicit close no passage of time reopens the socket |
| Sockets.DropIsHealedAfterDelay | ddp-redux/src/DDPClient.js:75-87 | a dropped socket that is not closed is still on the dropped transport at 4999 ms and on a fresh transport to the same endpoint at 5000 ms, whatever reopens other sockets have pending |
| Sockets.StaleTimerDisplacesReopenedSocket | ddp-redux/src/DDPClient.js:76-84 | as written, a leftover timer replaces a socket reopened after the drop, without closing it |
| Sockets.StaleTimerScenario | ddp-redux/src/DDPClient.js:59-96 | open, drop, close, open again, wait 5000 ms: the second transport is unregistered but never closed |
| Sockets.StaleTimerSparesReopenedSocket | ddp-redux/src/DDPClient.js:76-84 | guarded by the transport instance, a leftover timer leaves the registry unchanged |
| Sockets.ReopenedSocketSurvives | ddp-redux/src/DDPClient.js:76-84 | guarded by the transport instance, a socket outlives any passage of time while no timer of its own is pending |
| KeyValueStorage.New | ddp-redux/src/utils/Storage.js:45-47 | a new instance starts empty: every get fails, and the `__proto__` key is not an own key |
| KeyValueStorage.Set | ddp-redux/src/utils/Storage.js:49-52 | the key holds the value and every other key keeps its value; writing a primitive under `__proto__` stores nothing |
| KeyValueStorage.Del | ddp-redux/src/utils/Storage.js:54-57 | only the key is removed; deleting an absent key succeeds and changes nothing |
| KeyValueStorage.Get | ddp-redux/src/utils/Storage.js:59-65 | succeeds with the stored value exactly when the key is present, else fails with "No such key: key" |
| KeyValueStorage.GetAfterSet | ddp-redux/src/utils/Storage.js:49-65 | get after set of the same key yields the value, except `__proto__`, whose get still fails with "No such key" when it was not an own key before |
| KeyValueStorage.GetAfterSetOther | ddp-redux/src/utils/Storage.js:49-65 | set of one key does not change what another key reads |
| KeyValueStorage.GetAfterDel | ddp-redux/src/utils/Storage.js:54-65 | get after del fails with "No such key"; other keys read as before |
| KeyValueStorage.DelUndoesSet | ddp-redux/src/utils/Storage.js:49-57 | deleting a freshly set key restores the storage |
| KeyValueStorage.SetCurrentValueIsNoop | ddp-redux/src/utils/Storage.js:49-52 | re-setting a key to its current value changes nothing |
| Connection.Init | src/modules/connection.test.js:42-47 | the initial state is Disconnected with an empty queue |
| Connection.Reduce | src/modules/connection.test.js:49-113 | CONNECT gives Connecting, CONNECTED gives Connected, CLOSE gives Disconnected, all with the queue kept; ENQUEUE appends; a processed head leaves the queue |
| Connection.DispatchMethod | src/modules/connection.test.js:195-217 | while not Connected a method becomes an ENQUEUE of itself and nothing is sent; while Connected it is sent and passed on |
| Connection.Replay | src/modules/connection.test.js:219-248 | replaying queued calls records exactly one action per call, never rewrites earlier actions or socket writes, and keeps the connection status |
| Connection.Dispatch | src/modules/connection.test.js:127-248 | every action is recorded and passed on, except that a method call while not connected becomes an ENQUEUE of itself; CONNECTED leaves the connection Connected; only method calls, pings and CONNECTED write to the socket |
| Connection.OnMessage | src/modules/connection.test.js:127-174 | a `connected` message confirms the connection (CONNECTED first); a `ping` is answered by a pong with its id and leaves the state alone; other messages change nothing here |
| Connection.OnOpen | src/modules/connection.test.js:176-193 | a transport open sends the connect handshake directly and dispatches CONNECT, making the state Connecting |
| Connection.OnClose | src/modules/connection.test.js:144-154 | a transport close dispatches CLOSE and the state becomes Disconnected |
| Connection.EnqueueThenProcessHead | src/modules/connection.test.js:81-113 | enqueuing on an empty queue and processing that head restores the connection state |
| Connection.SubmitWhileOffline | src/modules/connection.test.js:195-217 | calls submitted offline are appended in order and none is sent |
| Connection.ReplaySendsInOrder | src/modules/connection.test.js:219-248 | replaying the queue front sends exactly those calls, in order, once each, and leaves the rest |
| Connection.ConnectedDrainsQueue | src/modules/connection.test.js:219-248 | on CONNECTED every queued call is re-dispatched once, in order, after CONNECTED; the queue ends empty |
| Connection.OfflineCallsDeliveredInOrder | src/modules/connection.test.js:195-248 | calls made while disconnected reach the socket exactly in submission order once connected |
| Connection.PingAnsweredByPong | src/modules/connection.test.js:156-174 | a ping with id T yields exactly one pong with id T, sent to the socket, and the connection state is unchanged |
| Connection.NothingSentWhileOffline | src/modules/connection.test.js:127-217 | while not connected, no action other than a ping or CONNECTED writes to the socket |
| Connection.StatusCycle | src/modules/connection.test.js:49-79 | open, confirm and close walk through Connecting, Connected and Disconnected |
| Queries.Reduce | src/modules/queries/middleware.test.js:69-206 | releases, requests and updates keep every query's id and dedup key in place; DELETE keeps exactly the queries of other ids |
| Queries.ReduceEffects | src/modules/queries/middleware.test.js:69-206 | CREATE appends a pending query with no users; a release lowers the count, not below zero; an update makes the query ready with the result's entities, or with the error and its old entities; other queries untouched |
| Queries.Dispatch | src/modules/queries/middleware.test.js:57-429 | the log only grows; every action except a request or refetch reaches the reducer first; a refetch reaches it last; a request reaches it tagged with a query id; only requests allocate ids; only requests and releases touch timers |
| Queries.Schedule | src/modules/queries/middleware.test.js:227-266 | the query ends with exactly one timer, due one cleanup timeout from now and last in order; the timers of other queries are kept |
| Queries.FireCleanup | src/modules/queries/middleware.test.js:227-266 | a registered query is deleted with its cached entities and nothing else is removed; for an unregistered one nothing happens |
| Queries.Tick | src/modules/queries/middleware.test.js:227-312 | time passing only appends DELETE actions to the log and only removes queries |
| Queries.RequestQuery | src/modules/queries/middleware.test.js:69-155 | absent key: the next id, then CREATE, METHOD and the request tagged with that id; existing key: that id, only the request, cleanup cancelled |
| Queries.FirstRequestGetsIdOne | src/modules/queries/middleware.test.js:69-119 | on a fresh store the first request gets query id "1" and emits CREATE, METHOD and the tagged request, in that order |
| Queries.RequestNewQuery | src/modules/queries/middleware.test.js:69-119 | the new id is held by no query yet; one pending query with one user is registered; the registry invariant holds |
| Queries.RequestExistingQuery | src/modules/queries/middleware.test.js:121-155 | the existing id is returned, users grow by one, no cleanup timer remains for it, invariant kept |
| Queries.RequestTwiceCallsOnce | src/modules/queries/middleware.test.js:69-155 | two requests for one key share one id and the second emits no CREATE or METHOD |
| Queries.ResultUpdatesQuery | src/modules/queries/middleware.test.js:157-206 | a result tagged with a query is followed by an update carrying the result's entities, which the query then holds, Ready |
| Queries.FailureRecordsError | ddp-redux/src/DDPClient.js:214-230 | a failed call yields an update with the error; the query is Ready with the error and keeps its entities |
| Queries.ReleaseUnknown | src/modules/queries/middleware.test.js:208-225 | releasing an unknown id emits nothing beyond the action itself |
| Queries.LastReleaseDeletesAfterTimeout | src/modules/queries/middleware.test.js:227-266 | releasing the last user emits DELETE with the query's entities at 30000 ms of virtual time, nothing at 29999 ms |
| Queries.RequestWithinTimeoutKeepsQuery | src/modules/queries/middleware.test.js:268-312 | re-requesting at any moment before the timer fires cancels deletion: no DELETE, no METHOD however long the clock then runs, and the query and its entities survive |
| Queries.ReleaseWithOtherUsers | src/modules/queries/middleware.test.js:314-343 | releasing while users exceed one schedules no deletion |
| Queries.ReleaseAtZero | src/modules/queries/middleware.test.js:227-266 | a release at zero users keeps the count at zero and the query unchanged |
| Queries.RefetchesFor | src/modules/queries/middleware.test.js:345-390 | the refetches of a reconnect are method calls for that socket only; each is the fetch of one of its ready queries, and every such query has one |
| Queries.RefetchesFollowRegistry | src/modules/queries/middleware.test.js:345-390 | the refetches are exactly the fetches of that socket's ready queries, one each, in registry order |
| Queries.ConnectRefetchesSocket | src/modules/queries/middleware.test.js:345-390 | CONNECT is passed on, then that socket's ready queries are refetched in registry order; the registry is unchanged |
| Queries.RefetchCallsMethodFirst | src/modules/queries/middleware.test.js:392-429 | REFETCH emits the query's method call before passing the action on; users, identity and entities unchanged |
| Queries.DispatchKeepsValid | src/modules/queries/middleware.test.js:69-429 | every action keeps query ids and dedup keys unique, ids issued by the counter, and cleanup timers ordered with at most one per query |
| Queries.TickKeepsValid | src/modules/queries/middleware.test.js:227-312 | the passage of virtual time keeps the same invariant |

## Left out

- `DDPSocket`, `DDPEmitter` and the `SocketConstructor` transport: the model keeps only the effects the registry asks of a transport. The re-emission of `message`/`open`/`close` events is not modelled.
- `setTimeout`: replaced by explicit timer lists and a virtual clock (`Sockets.Advance`, `Queries.Tick`).
- Promise asynchrony: `Storage` results and method-call settlements are synchronous `Result`/`Settlement` values.
- Resume-token helpers (`clearResumeToken`, `setResumeToken`, `getResumeToken`), `getStorageKey`, `cleanError` and the timeout getters: each forwards to a modelled operation (`KeyValueStorage.Del`/`Set`/`Get`, `Client.ToDDPError`, the timeout constants).
- `middleware()`, `reducer()`, `carefullyMapValues` and the lodash helpers: library plumbing that composes the modules.
- `registerModel`, `extractEntities` and the entity store: entity payloads are opaque values. Extraction is modelled as reading the result's `entities` field, as `defaultExtractEntities` does.
- The thunk, wrapWithPromise, currentUser, collections, messages and methods modules are not part of this model. That includes the method-call correlator and the subscription middleware that emits `sub` messages.
- `DEFAULT_SOCKET_ID` is defined in a file that is not part of this model. Socket ids are explicit parameters.
- JavaScript numbers are integers here. `NaN` and `-0`, which are also falsy, are not represented.
- Client.NextUniqueId: the counter is an unbounded integer. In JavaScript `counter += 1` stops growing at 2^53 and `toString` switches to exponent notation at 1e21, so the real ids are distinct only below 2^53. `Client.IdsStrictlyIncrease` holds for the model without that bound.
- Connection.Dispatch: the model answers a ping whatever the connection status. connection.test.js:156-174 pings only while connected, so the reply while not connected is an assumption of the model. A ping can only arrive over an open transport.
- Connection.Reduce: the model assumes the reducer drops the queue head when it equals the dispatched method by value. connection.test.js:102-113 removes one of two equal actions, which fits both value and identity comparison.
- Connection.DispatchMethod: only method calls are queued. The connection tests exercise only method calls, so queueing of `sub`/`unsub` actions is not modelled.
- Queries.Reduce: the query tests run against a store without the reducer, so its effects are reconstructed. The model registers a pending query with zero users on CREATE and moves users by one on request and release (not below zero). UPDATE makes the query Ready and records entities or error, and DELETE removes the entry.
- Queries.FireCleanup: as in the release tests, the firing timer does not re-check `users`. Deletion is prevented only by a request cancelling the timer.
- Queries.DispatchKeepsValid: a raw CREATE action is excluded. Only the request path issues one, for a key and id it has checked, and `Queries.RequestNewQuery` covers that path.
- Queries.RefetchesFor: the model assumes that a reconnect refetches only the socket's `Ready` queries. Both queries in middleware.test.js:345-390 are ready, so the test fits this reading and a socket-only one alike.
- KeyValueStorage.Set: values are taken to be primitives, for which a write under `__proto__` stores nothing. In JavaScript a write of `null` or an object there replaces the prototype of the backing object. After a `null` write, a later `__proto__` write becomes an own key that `get` finds. This is not modelled. The client stores only resume tokens, under endpoint keys (ddp-redux/src/DDPClient.js:39, 106-107).
- Queries.RefetchesFollowRegistry: "registry order" is the order in which queries were created. The source keeps queries in an object keyed by id, and JavaScript enumerates integer-like keys in ascending numeric order. The two orders agree because query ids come from the client's increasing counter. `Queries.ConnectRefetchesSocket` relies on the same reading.
- Sockets.DropIsHealedAfterDelay: stated for a socket with no reopen of its own already pending. Under the as-written guard an older timer for the same id would reopen it sooner (see Findings).
- Queries.RequestWithinTimeoutKeepsQuery: stated for a store with no other pending cleanup timer and a query with one user, as in the test. Other timers could delete other queries meanwhile, so the registry would not come back whole.
- Queries.LastReleaseDeletesAfterTimeout: stated for a store with no other pending cleanup timer, so the log holds only this query's deletion.

## Findings

| source | as written | input that shows it | evidently intended | confidence | as-written member | corrected member |
|---|---|---|---|---|---|---|
| ddp-redux/src/DDPClient.js:76-84 | the reopen timer reconnects whenever the socket id is registered | open(e, s); the transport of s closes; close(s); open(e, s) within 5000 ms; the timer fires | reconnect only if the transport that dropped is still the registered one, so that a socket reopened by the application is not displaced (it is dropped from the registry without being closed and keeps delivering messages under the same id) | medium, not executed | Sockets.StaleTimerScenario | Sockets.ReopenedSocketSurvives |

`Sockets.Fire` takes the guard as a parameter. `ById` is the code as written. `ByInstance` is
the corrected guard, which compares the registered transport with the one whose close
scheduled the timer.

=== FILE: client.dfy ===
/**
  Session-wide bookkeeping of the DDP client: the unique-id counter, error normalisation,
  the default timeouts and the dispatch sequence of a query fetch.
 */
module Client {
  import opened Wrappers
  import opened Values
  import Decimal

  /** Default delays in milliseconds. */
  const FlushTimeout: nat := 100
  const QueryCleanupTimeout: nat := 30000
  const SubscriptionCleanupTimeout: nat := 30000

  datatype Timeouts = Timeouts(flush: nat, queryCleanup: nat, subscriptionCleanup: nat)

  /** The timeouts a client reports when none is overridden. */
  function DefaultTimeouts(): (t: Timeouts)
    ensures t.flush == 100 && t.queryCleanup == 30000 && t.subscriptionCleanup == 30000
    ensures t.flush < t.queryCleanup
  {
    Timeouts(FlushTimeout, QueryCleanupTimeout, SubscriptionCleanupTimeout)
  }

  // ---------------------------------------------------------------------------
  // Unique ids

  /** The result of one `nextUniqueId` call: the bumped counter and the id handed out. */
  datatype Allocation = Allocation(counter: nat, id: string)

  /** Bumps the counter and renders its new value in decimal. */
  function NextUniqueId(counter: nat): (a: Allocation)
    ensures a.counter == counter + 1
    ensures Decimal.IsNumeral(a.id)
    ensures Decimal.Parse(a.id) == a.counter
  {
    Decimal.ToDecimalIsNumeral(counter + 1);
    Decimal.ParseToDecimal(counter + 1);
    Allocation(counter + 1, Decimal.ToDecimal(counter + 1))
  }

  /** The ids handed out by `k` successive calls starting from `counter`, in call order. */
  function IdsFrom(counter: nat, k: nat): (ids: seq<string>)
    ensures |ids| == k
    ensures forall i :: 0 <= i < |ids| ==> Decimal.IsNumeral(ids[i])
    decreases k
  {
    if k == 0 then [] else
      var a := NextUniqueId(counter);
      [a.id] + IdsFrom(a.counter, k - 1)
  }

  /** The i-th id of a run is the decimal rendering of `counter + i + 1`. */
  lemma {:induction false} IdsFromAt(counter: nat, k: nat, i: nat)
    requires i < k
    ensures Decimal.Parse(IdsFrom(counter, k)[i]) == counter + i + 1
    decreases k
  {
    var a := NextUniqueId(counter);
    var rest := IdsFrom(a.counter, k - 1);
    assert IdsFrom(counter, k) == [a.id] + rest;
    if i > 0 {
      IdsFromAt(a.counter, k - 1, i - 1);
      assert IdsFrom(counter, k)[i] == rest[i - 1];
    }
  }

  /** Successive ids read back as strictly increasing numbers, so on the unbounded counter no
      id is handed out twice. */
  lemma IdsStrictlyIncrease(counter: nat, k: nat, i: nat, j: nat)
    requires i < j < k
    ensures Decimal.Parse(IdsFrom(counter, k)[i]) < Decimal.Parse(IdsFrom(counter, k)[j])
    ensures IdsFrom(counter, k)[i] != IdsFrom(counter, k)[j]
  {
    IdsFromAt(counter, k, i);
    IdsFromAt(counter, k, j);
  }

  // ---------------------------------------------------------------------------
  // Error normalisation

  /** Coerces any thrown or received value into the `{error, reason, details}` shape; falsy gives null. */
  function ToDDPError(v: Value): (r: Option<DDPError>)
    ensures r.None? <==> Falsy(v)
    ensures v.ErrorObject? ==> r == Some(v.err)
    ensures v.Obj? || v.Arr? ==>
      r == Some(DDPError(Field(v, "error"), Field(v, "reason"), Field(v, "details")))
    ensures v.Str? && v.s != "" ==> r == Some(DDPError(v, Undefined, Undefined))
    ensures (v.Bool? || v.Num? || v.Callable?) && !Falsy(v) ==> r == Some(EmptyError)
  {
    if Falsy(v) then None
    else if v.ErrorObject? then Some(v.err)
    else if IsObject(v) then Some(DDPError(Field(v, "error"), Field(v, "reason"), Field(v, "details")))
    else if v.Str? then Some(DDPError(v, Undefined, Undefined))
    else Some(EmptyError)
  }

  /** The plain-object form in which an error travels over the wire. */
  function AsPlainObject(e: DDPError): Value {
    Obj(map["error" := e.error, "reason" := e.reason, "details" := e.details])
  }

  /** Normalising is idempotent: a normalised error, sent as a plain object or kept as a
      DDPError instance, normalises back to itself. */
  lemma NormaliseIsIdempotent(v: Value)
    ensures ToDDPError(v).Some? ==> ToDDPError(AsPlainObject(ToDDPError(v).value)) == ToDDPError(v)
    ensures ToDDPError(v).Some? ==> ToDDPError(ErrorObject(ToDDPError(v).value)) == ToDDPError(v)
  {
    if ToDDPError(v).Some? {
      var e := ToDDPError(v).value;
      var o := AsPlainObject(e);
      assert Field(o, "error") == e.error;
      assert Field(o, "reason") == e.reason;
      assert Field(o, "details") == e.details;
    }
  }

  // ---------------------------------------------------------------------------
  // fetch

  /** What a query update carries once the method call has settled. */
  datatype UpdatePayload = WithResult(result: Value) | WithError(error: Value)

  /** Actions a fetch dispatches. `QueryUpdate(id, None)` is `queryUpdate(queryId, null)`. */
  datatype FetchAction =
    | QueryUpdate(queryId: string, update: Option<UpdatePayload>)
    | CallMethod(name: string, params: Value, queryId: string, socketId: Option<string>)

  /** How the method call's promise chain has settled so far. The `catch` is chained after the
      `then`, so it also receives an exception thrown while the `{result}` update is dispatched
      (by a reducer or a middleware): `ResolvedThenFailed` is that run. */
  datatype Settlement =
    | Unsettled
    | Resolved(result: Value)
    | Rejected(error: Value)
    | ResolvedThenFailed(result: Value, error: Value)

  /** The actions `fetch` dispatches, given how the method call and its success update settle. */
  function Fetch(name: string, params: Value, queryId: string, socketId: Option<string>, s: Settlement)
    : (r: seq<FetchAction>)
    ensures |r| == (match s case Unsettled => 2 case ResolvedThenFailed(_, _) => 4 case _ => 3)
    ensures r[0] == QueryUpdate(queryId, None)
    ensures r[1] == CallMethod(name, params, queryId, socketId)
    ensures s.Resolved? || s.ResolvedThenFailed? ==> r[2] == QueryUpdate(queryId, Some(WithResult(s.result)))
    ensures s.Rejected? ==> r[2] == QueryUpdate(queryId, Some(WithError(s.error)))
    ensures s.ResolvedThenFailed? ==> r[3] == QueryUpdate(queryId, Some(WithError(s.error)))
  {
    var started := [QueryUpdate(queryId, None), CallMethod(name, params, queryId, socketId)];
    match s
    case Unsettled => started
    case Resolved(result) => started + [QueryUpdate(queryId, Some(WithResult(result)))]
    case Rejected(error) => started + [QueryUpdate(queryId, Some(WithError(error)))]
    case ResolvedThenFailed(result, error) =>
      started + [QueryUpdate(queryId, Some(WithResult(result))), QueryUpdate(queryId, Some(WithError(error)))]
  }

  /** Whether an action is a query update carrying a result, or carrying an error. */
  predicate IsResultUpdate(a: FetchAction) {
    a.QueryUpdate? && a.update.Some? && a.update.value.WithResult?
  }

  predicate IsErrorUpdate(a: FetchAction) {
    a.QueryUpdate? && a.update.Some? && a.update.value.WithError?
  }

  /** What an observer of the dispatched actions learns about the call's outcome, reading the
      updates that follow the method call. */
  function ObservedSettlement(actions: seq<FetchAction>): Settlement {
    if |actions| < 3 then Unsettled
    else if IsResultUpdate(actions[2]) then
      if |actions| >= 4 && IsErrorUpdate(actions[3]) then
        ResolvedThenFailed(actions[2].update.value.result, actions[3].update.value.error)
      else Resolved(actions[2].update.value.result)
    else if IsErrorUpdate(actions[2]) then Rejected(actions[2].update.value.error)
    else Unsettled
  }

  /** The dispatch sequence of a fetch determines its outcome (including a failure while the
      success update was dispatched), and it calls the method exactly once, after resetting the
      query and before any settled update. */
  lemma FetchRevealsSettlement(name: string, params: Value, queryId: string, socketId: Option<string>,
                               s: Settlement)
    ensures ObservedSettlement(Fetch(name, params, queryId, socketId, s)) == s
    ensures forall i :: 0 <= i < |Fetch(name, params, queryId, socketId, s)| ==>
      (Fetch(name, params, queryId, socketId, s)[i].CallMethod? <==> i == 1)
    ensures forall i :: 0 <= i < |Fetch(name, params, queryId, socketId, s)| ==>
      Fetch(name, params, queryId, socketId, s)[i].queryId == queryId
  {
  }
}

=== FILE: connection.dfy ===
/**
  The per-socket connection state machine and its FIFO queue of method calls submitted while
  not connected, together with the middleware that routes actions to the socket, replays the
  queue once connected and answers pings.
 */
module Connection {
  import opened Wrappers
  import opened Values

  datatype Status = Disconnected | Connecting | Connected

  /** The queue holds method actions, each represented by its protocol message. */
  datatype Conn = Conn(status: Status, queue: seq<Value>)

  /** Messages the engine writes to the socket. */
  datatype Msg =
    | ConnectMsg(version: string, support: seq<string>)
    | PongMsg(id: Option<string>)
    | MethodMsg(payload: Value)

  /** The handshake sent when the transport opens. */
  const Handshake: Msg := ConnectMsg("1.0", ["1.0"])

  datatype Action =
    | Connect(handshake: Msg)
    | ConnectedAct(payload: Value)
    | Close
    | Ping(id: Option<string>)
    | Pong(pong: Msg)
    | Enqueue(queued: Value)
    | Method(payload: Value)
    | Other(kind: string)

  /** Messages arriving from the server. */
  datatype Incoming = ConnectedMsg(payload: Value) | PingMsg(id: Option<string>) | OtherMsg(payload: Value)

  /** The state a fresh store starts from. */
  function Init(): (c: Conn)
    ensures c.status == Disconnected && c.queue == []
  {
    Conn(Disconnected, [])
  }

  /** The connection reducer. */
  function Reduce(c: Conn, a: Action): (r: Conn)
    ensures a.Connect? ==> r == Conn(Connecting, c.queue)
    ensures a.ConnectedAct? ==> r == Conn(Connected, c.queue)
    ensures a.Close? ==> r == Conn(Disconnected, c.queue)
    ensures a.Enqueue? ==> r == Conn(c.status, c.queue + [a.queued])
    ensures a.Method? && |c.queue| > 0 && c.queue[0] == a.payload ==> r == Conn(c.status, c.queue[1..])
    ensures a.Method? && (|c.queue| == 0 || c.queue[0] != a.payload) ==> r == c
    ensures a.Ping? || a.Pong? || a.Other? ==> r == c
  {
    match a
    case Connect(_) => c.(status := Connecting)
    case ConnectedAct(_) => c.(status := Connected)
    case Close => c.(status := Disconnected)
    case Enqueue(m) => c.(queue := c.queue + [m])
    case Method(m) => if |c.queue| > 0 && c.queue[0] == m then c.(queue := c.queue[1..]) else c
    case _ => c
  }

  /** The store: connection state, every action that reached the reducer, and what the socket was sent. */
  datatype Store = Store(conn: Conn, actions: seq<Action>, sent: seq<Msg>)

  /** Passes an action on to the reducer and records it. */
  function Commit(s: Store, a: Action): (s': Store)
    ensures s'.conn == Reduce(s.conn, a) && s'.actions == s.actions + [a] && s'.sent == s.sent
  {
    Store(Reduce(s.conn, a), s.actions + [a], s.sent)
  }

  /** A method call: sent at once when connected, otherwise turned into an `ENQUEUE` of itself. */
  function DispatchMethod(s: Store, m: Value): (s': Store)
    ensures s.conn.status != Connected ==>
      s' == Store(Conn(s.conn.status, s.conn.queue + [m]), s.actions + [Enqueue(m)], s.sent)
    ensures s.conn.status == Connected ==>
      && s'.sent == s.sent + [MethodMsg(m)]
      && s'.actions == s.actions + [Method(m)]
      && s'.conn == Reduce(s.conn, Method(m))
  {
    if s.conn.status != Connected then Commit(s, Enqueue(m))
    else Commit(s.(sent := s.sent + [MethodMsg(m)]), Method(m))
  }

  /** The messages of a run of method calls, in order. */
  function MethodMsgs(q: seq<Value>): seq<Msg> {
    if |q| == 0 then [] else [MethodMsg(q[0])] + MethodMsgs(q[1..])
  }

  /** The method actions of a run of method calls, in order. */
  function MethodActions(q: seq<Value>): seq<Action> {
    if |q| == 0 then [] else [Method(q[0])] + MethodActions(q[1..])
  }

  /** Re-dispatches the queued method calls one by one, oldest first. */
  function Replay(s: Store, q: seq<Value>): (s': Store)
    ensures s'.conn.status == s.conn.status
    ensures |s'.actions| == |s.actions| + |q| && s'.actions[..|s.actions|] == s.actions
    ensures |s.sent| <= |s'.sent| && s'.sent[..|s.sent|] == s.sent
    decreases |q|
  {
    if |q| == 0 then s else Replay(DispatchMethod(s, q[0]), q[1..])
  }

  /** The connection middleware followed by the reducer. */
  function Dispatch(s: Store, a: Action): (s': Store)
    ensures |s.actions| < |s'.actions| && s'.actions[..|s.actions|] == s.actions
    ensures |s.sent| <= |s'.sent| && s'.sent[..|s.sent|] == s.sent
    ensures a.Method? && s.conn.status != Connected ==> s'.actions[|s.actions|] == Enqueue(a.payload)
    ensures !(a.Method? && s.conn.status != Connected) ==> s'.actions[|s.actions|] == a
    ensures a.ConnectedAct? ==> s'.conn.status == Connected
    ensures !a.Method? && !a.Ping? && !a.ConnectedAct? ==> s'.sent == s.sent
  {
    match a
    case Method(m) => DispatchMethod(s, m)
    case Ping(id) =>
      var pinged := Commit(s, a);
      Commit(pinged.(sent := pinged.sent + [PongMsg(id)]), Pong(PongMsg(id)))
    case ConnectedAct(_) =>
      var connected := Commit(s, a);
      Replay(connected, connected.conn.queue)
    case _ => Commit(s, a)
  }

  /** The socket opened: the handshake goes straight to the socket, bypassing the queue. */
  function OnOpen(s: Store): (s': Store)
    ensures s'.sent == s.sent + [Handshake]
    ensures s'.actions == s.actions + [Connect(Handshake)]
    ensures s'.conn == Conn(Connecting, s.conn.queue)
  {
    Commit(s.(sent := s.sent + [Handshake]), Connect(Handshake))
  }

  /** Routes a server message: `connected` confirms the connection, `ping` is answered, and
      anything else is left to other modules. */
  function OnMessage(s: Store, msg: Incoming): (s': Store)
    ensures msg.OtherMsg? ==> s' == s
    ensures msg.PingMsg? ==> s'.sent == s.sent + [PongMsg(msg.id)] && s'.conn == s.conn
    ensures msg.ConnectedMsg? ==>
      && s'.conn.status == Connected
      && |s.actions| < |s'.actions| && s'.actions[|s.actions|] == ConnectedAct(msg.payload)
      && |s.sent| <= |s'.sent| && s'.sent[..|s.sent|] == s.sent
  {
    match msg
    case ConnectedMsg(payload) => Dispatch(s, ConnectedAct(payload))
    case PingMsg(id) => Dispatch(s, Ping(id))
    case OtherMsg(_) => s
  }

  function OnClose(s: Store): (s': Store)
    ensures s' == Store(Conn(Disconnected, s.conn.queue), s.actions + [Close], s.sent)
  {
    Dispatch(s, Close)
  }

  /** Dispatches a sequence of method calls in order. */
  function SubmitAll(s: Store, ms: seq<Value>): Store
    decreases |ms|
  {
    if |ms| == 0 then s else SubmitAll(DispatchMethod(s, ms[0]), ms[1..])
  }

  // ---------------------------------------------------------------------------
  // Properties

  /** Queue discipline: an enqueued call lands at the back; processing the head removes
      exactly it. Enqueueing onto an empty queue and processing the head is a no-op. */
  lemma EnqueueThenProcessHead(c: Conn, m: Value)
    requires c.queue == []
    ensures Reduce(Reduce(c, Enqueue(m)), Method(m)) == c
  {
  }

  /** Calls submitted while not connected are all queued, in submission order, and none is sent. */
  lemma {:induction false} SubmitWhileOffline(s: Store, ms: seq<Value>)
    requires s.conn.status != Connected
    ensures SubmitAll(s, ms).conn == Conn(s.conn.status, s.conn.queue + ms)
    ensures SubmitAll(s, ms).sent == s.sent
    decreases |ms|
  {
    if |ms| > 0 {
      var next := DispatchMethod(s, ms[0]);
      SubmitWhileOffline(next, ms[1..]);
      assert s.conn.queue + [ms[0]] + ms[1..] == s.conn.queue + ms;
    }
  }

  /** Sending the head of the queue while connected moves it from the queue to the wire. */
  lemma SendHead(s: Store, q: seq<Value>, rest: seq<Value>)
    requires s.conn.status == Connected && s.conn.queue == q + rest && |q| > 0
    ensures DispatchMethod(s, q[0]).conn == Conn(Connected, q[1..] + rest)
    ensures DispatchMethod(s, q[0]).sent == s.sent + [MethodMsg(q[0])]
    ensures DispatchMethod(s, q[0]).actions == s.actions + [Method(q[0])]
  {
    assert (q + rest)[0] == q[0];
    assert (q + rest)[1..] == q[1..] + rest;
  }

  lemma {:induction false} ReplayDrainsFront(s: Store, q: seq<Value>, rest: seq<Value>)
    requires s.conn.status == Connected && s.conn.queue == q + rest
    ensures Replay(s, q).conn == Conn(Connected, rest)
    decreases |q|
  {
    if |q| > 0 {
      SendHead(s, q, rest);
      ReplayDrainsFront(DispatchMethod(s, q[0]), q[1..], rest);
    }
  }

  lemma {:induction false} ReplaySendsFront(s: Store, q: seq<Value>, rest: seq<Value>)
    requires s.conn.status == Connected && s.conn.queue == q + rest
    ensures Replay(s, q).sent == s.sent + MethodMsgs(q)
    decreases |q|
  {
    if |q| > 0 {
      SendHead(s, q, rest);
      ReplaySendsFront(DispatchMethod(s, q[0]), q[1..], rest);
      assert s.sent + [MethodMsg(q[0])] + MethodMsgs(q[1..]) == s.sent + MethodMsgs(q);
    }
  }

  lemma {:induction false} ReplayRecordsFront(s: Store, q: seq<Value>, rest: seq<Value>)
    requires s.conn.status == Connected && s.conn.queue == q + rest
    ensures Replay(s, q).actions == s.actions + MethodActions(q)
    decreases |q|
  {
    if |q| > 0 {
      SendHead(s, q, rest);
      ReplayRecordsFront(DispatchMethod(s, q[0]), q[1..], rest);
      assert s.actions + [Method(q[0])] + MethodActions(q[1..]) == s.actions + MethodActions(q);
    }
  }

  /** Replaying the front `q` of the queue while connected sends exactly `q`, in order, records
      each call once, and leaves the rest of the queue. */
  lemma ReplaySendsInOrder(s: Store, q: seq<Value>, rest: seq<Value>)
    requires s.conn.status == Connected && s.conn.queue == q + rest
    ensures Replay(s, q).conn == Conn(Connected, rest)
    ensures Replay(s, q).sent == s.sent + MethodMsgs(q)
    ensures Replay(s, q).actions == s.actions + MethodActions(q)
  {
    ReplayDrainsFront(s, q, rest);
    ReplaySendsFront(s, q, rest);
    ReplayRecordsFront(s, q, rest);
  }

  /** On `CONNECTED` every queued call is sent exactly once, in original order, after the
      `CONNECTED` action, and the queue ends empty. */
  lemma ConnectedDrainsQueue(s: Store, payload: Value)
    ensures Dispatch(s, ConnectedAct(payload)).conn == Conn(Connected, [])
    ensures Dispatch(s, ConnectedAct(payload)).sent == s.sent + MethodMsgs(s.conn.queue)
    ensures Dispatch(s, ConnectedAct(payload)).actions
      == s.actions + [ConnectedAct(payload)] + MethodActions(s.conn.queue)
  {
    var connected := Commit(s, ConnectedAct(payload));
    assert connected.conn.queue == s.conn.queue + [];
    ReplaySendsInOrder(connected, s.conn.queue, []);
  }

  /** End to end: calls made while disconnected reach the socket exactly once each, in the
      order they were made, once the server confirms the connection. */
  lemma OfflineCallsDeliveredInOrder(s: Store, ms: seq<Value>, payload: Value)
    requires s.conn == Init() && s.sent == []
    ensures Dispatch(SubmitAll(s, ms), ConnectedAct(payload)).sent == MethodMsgs(ms)
    ensures Dispatch(SubmitAll(s, ms), ConnectedAct(payload)).conn.queue == []
  {
    SubmitWhileOffline(s, ms);
    var offline := SubmitAll(s, ms);
    assert offline.conn.queue == ms && offline.sent == [];
    ConnectedDrainsQueue(offline, payload);
    assert [] + MethodMsgs(ms) == MethodMsgs(ms);
  }

  /** A ping yields exactly one pong, carrying the ping's id, sent to the socket; the
      connection state does not change. */
  lemma PingAnsweredByPong(s: Store, id: Option<string>)
    ensures Dispatch(s, Ping(id)).sent == s.sent + [PongMsg(id)]
    ensures Dispatch(s, Ping(id)).actions == s.actions + [Ping(id), Pong(PongMsg(id))]
    ensures Dispatch(s, Ping(id)).conn == s.conn
  {
  }

  /** While not connected the engine writes nothing to the socket except ping replies and,
      on `CONNECTED`, the replay; in particular no method call leaves before the connection
      is confirmed. */
  lemma NothingSentWhileOffline(s: Store, a: Action)
    requires s.conn.status != Connected
    requires !a.Ping? && !a.ConnectedAct?
    ensures Dispatch(s, a).sent == s.sent
  {
  }

  /** Transitions of the state machine: opening connects, confirmation connects, a close
      disconnects, and none of them touches the queue. */
  lemma StatusCycle(s: Store, payload: Value)
    requires s.conn.queue == []
    ensures OnOpen(s).conn.status == Connecting
    ensures Dispatch(OnOpen(s), ConnectedAct(payload)).conn == Conn(Connected, [])
    ensures OnClose(Dispatch(OnOpen(s), ConnectedAct(payload))).conn == Conn(Disconnected, [])
  {
    ConnectedDrainsQueue(OnOpen(s), payload);
  }
}

=== FILE: decimal.dfy ===
/** Decimal rendering of natural numbers, as `Number.prototype.toString()` does for counters. */
module Decimal {

  predicate IsDigit(c: char) {
    '0' <= c <= '9'
  }

  function DigitChar(d: nat): (c: char)
    requires d < 10
    ensures IsDigit(c)
  {
    "0123456789"[d]
  }

  function DigitValue(c: char): (d: nat)
    requires IsDigit(c)
    ensures d < 10
  {
    (c as int - '0' as int) as nat
  }

  /** A canonical decimal numeral: non-empty, digits only, no leading zero except "0" itself. */
  predicate IsNumeral(s: string) {
    && |s| > 0
    && (forall i :: 0 <= i < |s| ==> IsDigit(s[i]))
    && (|s| > 1 ==> s[0] != '0')
  }

  function ToDecimal(n: nat): (s: string)
    ensures |s| > 0
    ensures forall i :: 0 <= i < |s| ==> IsDigit(s[i])
  {
    if n < 10 then [DigitChar(n)] else ToDecimal(n / 10) + [DigitChar(n % 10)]
  }

  function Parse(s: string): nat
    requires forall i :: 0 <= i < |s| ==> IsDigit(s[i])
  {
    if |s| == 0 then 0 else Parse(s[..|s| - 1]) * 10 + DigitValue(s[|s| - 1])
  }

  lemma DigitRoundTrip(d: nat)
    requires d < 10
    ensures DigitValue(DigitChar(d)) == d
  {
    var digits := "0123456789";
    assert digits[d] as int - '0' as int == d by {
      assert digits[0] == '0' && digits[1] == '1' && digits[2] == '2' && digits[3] == '3'
        && digits[4] == '4' && digits[5] == '5' && digits[6] == '6' && digits[7] == '7'
        && digits[8] == '8' && digits[9] == '9';
    }
  }

  /** Reading back the rendered numeral yields the number. */
  lemma {:induction false} ParseToDecimal(n: nat)
    ensures Parse(ToDecimal(n)) == n
    decreases n
  {
    var s := ToDecimal(n);
    if n < 10 {
      DigitRoundTrip(n);
    } else {
      ParseToDecimal(n / 10);
      DigitRoundTrip(n % 10);
      assert s[..|s| - 1] == ToDecimal(n / 10);
    }
  }

  /** The rendering is canonical: it never has a leading zero. */
  lemma {:induction false} ToDecimalIsNumeral(n: nat)
    ensures IsNumeral(ToDecimal(n))
    decreases n
  {
    if n >= 10 {
      ToDecimalIsNumeral(n / 10);
      DigitRoundTrip(0);
      var head := ToDecimal(n / 10);
      if |head| == 1 {
        // head is the single digit n / 10, which is not zero
        assert head[0] != '0' by {
          if head[0] == '0' {
            assert Parse(head) == Parse(head[..0]) * 10 + DigitValue(head[0]);
            assert head[..0] == [];
            ParseToDecimal(n / 10);
          }
        }
      }
    }
  }

  /** Distinct numbers render as distinct strings. */
  lemma ToDecimalInjective(m: nat, n: nat)
    ensures ToDecimal(m) == ToDecimal(n) <==> m == n
  {
    if ToDecimal(m) == ToDecimal(n) {
      ParseToDecimal(m);
      ParseToDecimal(n);
    }
  }
}

=== FILE: queries.dfy ===
/**
  The query lifecycle: a registry of method-backed queries deduplicated by
  `(name, params, socketId)`, reference counted, refreshed from method results, refetched on
  reconnect or on demand, and deleted only after its last user released it and the cleanup
  timeout passed on the virtual clock without a new request.
 */
module Queries {
  import opened Wrappers
  import opened Values
  import Client
  import Decimal

  datatype QueryState = Pending | Ready

  datatype Query = Query(
    id: string,
    name: string,
    params: Value,
    socketId: Option<string>,
    state: QueryState,
    users: nat,
    entities: Value,
    error: Value)

  /** The identity under which requests are deduplicated. */
  datatype Key = Key(name: string, params: Value, socketId: Option<string>)

  function KeyOf(q: Query): Key {
    Key(q.name, q.params, q.socketId)
  }

  /** How a method call ended. */
  datatype Outcome = Returned(result: Value) | Threw(error: Value)

  /** What a query update carries. */
  datatype UpdatePayload = Entities(entities: Value) | Failed(error: Value)

  datatype Action =
    | Request(name: string, params: Value, socketId: Option<string>, metaQueryId: Option<string>)
    | Release(queryId: string)
    | Refetch(queryId: string)
    | Connect(socketId: Option<string>)
    | MethodResult(methodId: string, outcome: Outcome, resultQueryId: Option<string>)
    | Create(name: string, params: Value, queryId: string, socketId: Option<string>)
    | Method(name: string, params: Value, queryId: string, socketId: Option<string>)
    | Update(queryId: string, payload: UpdatePayload)
    | Delete(queryId: string, entities: Value)
    | Other(kind: string)

  datatype CleanupTimer = CleanupTimer(queryId: string, due: nat)

  /** The queries in registration order, the session's id counter, the virtual clock, pending
      cleanup timers in firing order, and every action that reached the reducer. */
  datatype Store = Store(
    queries: seq<Query>,
    counter: nat,
    now: nat,
    timers: seq<CleanupTimer>,
    log: seq<Action>)

  // ---------------------------------------------------------------------------
  // Registry helpers

  /** The position of the query with the given id, if any (the first, should there be several). */
  function IndexOfId(qs: seq<Query>, id: string): (r: Option<nat>)
    ensures r.Some? ==> r.value < |qs| && qs[r.value].id == id
    ensures r.None? <==> forall i :: 0 <= i < |qs| ==> qs[i].id != id
    ensures r.Some? ==> forall j :: 0 <= j < r.value ==> qs[j].id != id
  {
    if |qs| == 0 then None
    else if qs[0].id == id then Some(0)
    else match IndexOfId(qs[1..], id)
      case None => None
      case Some(i) => Some(i + 1)
  }

  /** The position of the query registered under a key, if any. */
  function IndexOfKey(qs: seq<Query>, k: Key): (r: Option<nat>)
    ensures r.Some? ==> r.value < |qs| && KeyOf(qs[r.value]) == k
    ensures r.None? <==> forall i :: 0 <= i < |qs| ==> KeyOf(qs[i]) != k
  {
    if |qs| == 0 then None
    else if KeyOf(qs[0]) == k then Some(0)
    else match IndexOfKey(qs[1..], k)
      case None => None
      case Some(i) => Some(i + 1)
  }

  /** The registry without the queries of the given id, others kept in order. */
  function RemoveId(qs: seq<Query>, id: string): (r: seq<Query>)
    ensures forall q :: q in r <==> q in qs && q.id != id
    ensures |r| <= |qs|
  {
    if |qs| == 0 then []
    else if qs[0].id == id then RemoveId(qs[1..], id)
    else [qs[0]] + RemoveId(qs[1..], id)
  }

  /** The pending timers without those of the given query, others kept in order. */
  function CancelTimer(ts: seq<CleanupTimer>, id: string): (r: seq<CleanupTimer>)
    ensures forall t :: t in r <==> t in ts && t.queryId != id
    ensures |r| <= |ts|
  {
    if |ts| == 0 then []
    else if ts[0].queryId == id then CancelTimer(ts[1..], id)
    else [ts[0]] + CancelTimer(ts[1..], id)
  }

  /** Whether a query with this id is registered. */
  predicate Registered(s: Store, id: string) {
    IndexOfId(s.queries, id).Some?
  }

  // ---------------------------------------------------------------------------
  // Reducer

  /** The query reducer: `CREATE` registers a pending query with no users, a request or
      release moves the count by one without going below zero, an update refreshes the
      entities or records the error and makes the query ready, and `DELETE` removes it. */
  function Reduce(qs: seq<Query>, a: Action): (r: seq<Query>)
    ensures a.Delete? ==> forall q :: q in r <==> q in qs && q.id != a.queryId
    ensures !a.Create? && !a.Delete? ==> SameIdentities(qs, r)
  {
    match a
    case Create(name, params, id, socketId) =>
      RemoveId(qs, id) + [Query(id, name, params, socketId, Pending, 0, Undefined, Undefined)]
    case Request(_, _, _, Some(id)) =>
      (match IndexOfId(qs, id)
       case Some(i) => qs[i := qs[i].(users := qs[i].users + 1)]
       case None => qs)
    case Release(id) =>
      (match IndexOfId(qs, id)
       case Some(i) => qs[i := qs[i].(users := if qs[i].users > 0 then qs[i].users - 1 else 0)]
       case None => qs)
    case Update(id, payload) =>
      (match IndexOfId(qs, id)
       case Some(i) =>
         (match payload
          case Entities(e) => qs[i := qs[i].(state := Ready, entities := e, error := Undefined)]
          case Failed(err) => qs[i := qs[i].(state := Ready, error := err)])
       case None => qs)
    case Delete(id, _) => RemoveId(qs, id)
    case _ => qs
  }

  /** What each reducer action does to the registry: `CREATE` appends a pending query with no
      users after dropping any query of that id, a release lowers the count without going below
      zero, an update makes the query ready with fresh entities or with the error (keeping the
      entities), and no other query is touched. */
  lemma ReduceEffects(qs: seq<Query>, a: Action)
    ensures var r := Reduce(qs, a);
      a.Create? ==>
      && |r| > 0
      && r[|r| - 1] == Query(a.queryId, a.name, a.params, a.socketId, Pending, 0, Undefined, Undefined)
      && forall q :: q in r[..|r| - 1] <==> q in qs && q.id != a.queryId
    ensures var r := Reduce(qs, a);
      a.Release? || a.Update? ==> forall j :: 0 <= j < |qs| && qs[j].id != a.queryId ==> r[j] == qs[j]
    ensures var r := Reduce(qs, a);
      a.Release? && IndexOfId(qs, a.queryId).Some? ==>
      var i := IndexOfId(qs, a.queryId).value;
      r[i] == qs[i].(users := if qs[i].users > 0 then qs[i].users - 1 else 0)
    ensures var r := Reduce(qs, a);
      a.Update? && IndexOfId(qs, a.queryId).Some? ==>
      var i := IndexOfId(qs, a.queryId).value;
      && r[i].state == Ready
      && (a.payload.Entities? ==> r[i].entities == a.payload.entities && r[i].error == Undefined)
      && (a.payload.Failed? ==> r[i].error == a.payload.error && r[i].entities == qs[i].entities)
  {
    if a.Create? {
      var r := Reduce(qs, a);
      assert r[..|r| - 1] == RemoveId(qs, a.queryId);
    }
  }

  /** Passes an action on to the reducer and records it. */
  function Commit(s: Store, a: Action): (s': Store)
    ensures s'.log == s.log + [a]
    ensures s'.counter == s.counter && s'.now == s.now && s'.timers == s.timers
  {
    s.(queries := Reduce(s.queries, a), log := s.log + [a])
  }

  /** Starts the cleanup timer of a query, superseding any it already had. */
  function Schedule(s: Store, id: string): (s': Store)
    ensures s'.timers == CancelTimer(s.timers, id) + [CleanupTimer(id, s.now + Client.QueryCleanupTimeout)]
    ensures s'.queries == s.queries && s'.log == s.log && s'.now == s.now && s'.counter == s.counter
    ensures forall t :: t in s'.timers <==>
      (t in s.timers && t.queryId != id) || t == CleanupTimer(id, s.now + Client.QueryCleanupTimeout)
    ensures forall k :: 0 <= k < |s'.timers| && s'.timers[k].queryId == id ==> k == |s'.timers| - 1
  {
    s.(timers := CancelTimer(s.timers, id) + [CleanupTimer(id, s.now + Client.QueryCleanupTimeout)])
  }

  // ---------------------------------------------------------------------------
  // Middleware

  /** What a request returns: the id of the query that serves it, and the resulting store. */
  datatype Requested = Requested(store: Store, queryId: string)

  /** The method call that (re)fetches a query. */
  function FetchOf(q: Query): Action {
    Method(q.name, q.params, q.id, q.socketId)
  }

  /** A request reuses the query registered under its key, cancelling its cleanup; otherwise
      it allocates the next id and creates the query and its method call first. */
  function RequestQuery(s: Store, name: string, params: Value, socketId: Option<string>): (r: Requested)
    ensures IndexOfKey(s.queries, Key(name, params, socketId)).None? ==>
      var a := Client.NextUniqueId(s.counter);
      && r.queryId == a.id
      && r.store.counter == a.counter
      && r.store.log == s.log + [Create(name, params, a.id, socketId), Method(name, params, a.id, socketId),
                                 Request(name, params, socketId, Some(a.id))]
      && r.store.timers == s.timers
    ensures IndexOfKey(s.queries, Key(name, params, socketId)).Some? ==>
      var i := IndexOfKey(s.queries, Key(name, params, socketId)).value;
      && r.queryId == s.queries[i].id
      && r.store.counter == s.counter
      && r.store.log == s.log + [Request(name, params, socketId, Some(s.queries[i].id))]
      && r.store.timers == CancelTimer(s.timers, s.queries[i].id)
    ensures r.store.now == s.now
  {
    match IndexOfKey(s.queries, Key(name, params, socketId))
    case Some(i) =>
      var id := s.queries[i].id;
      var kept := s.(timers := CancelTimer(s.timers, id));
      Requested(Commit(kept, Request(name, params, socketId, Some(id))), id)
    case None =>
      var a := Client.NextUniqueId(s.counter);
      var counted := s.(counter := a.counter);
      var created := Commit(counted, Create(name, params, a.id, socketId));
      var called := Commit(created, Method(name, params, a.id, socketId));
      Requested(Commit(called, Request(name, params, socketId, Some(a.id))), a.id)
  }

  /** A query a reconnect of `socketId` refetches: one of that socket's, holding data. */
  predicate Refetchable(q: Query, socketId: Option<string>) {
    q.socketId == socketId && q.state == Ready
  }

  /** The refetches a reconnect of `socketId` issues: one per ready query of that socket, in order. */
  function RefetchesFor(qs: seq<Query>, socketId: Option<string>): (r: seq<Action>)
    ensures forall a :: a in r ==> a.Method? && a.socketId == socketId
    ensures forall a :: a in r ==> exists q :: q in qs && Refetchable(q, socketId) && a == FetchOf(q)
    ensures forall q :: q in qs && Refetchable(q, socketId) ==> FetchOf(q) in r
    ensures |r| <= |qs|
    decreases |qs|
  {
    if |qs| == 0 then []
    else
      var front := RefetchesFor(qs[..|qs| - 1], socketId);
      assert forall q :: q in qs[..|qs| - 1] ==> q in qs;
      if Refetchable(qs[|qs| - 1], socketId) then front + [FetchOf(qs[|qs| - 1])] else front
  }

  /** The registry positions of the queries a reconnect of `socketId` refetches, in order. */
  function RefetchedPositions(qs: seq<Query>, socketId: Option<string>): (ix: seq<nat>)
    ensures forall k :: 0 <= k < |ix| ==> ix[k] < |qs|
    decreases |qs|
  {
    if |qs| == 0 then []
    else
      var front := RefetchedPositions(qs[..|qs| - 1], socketId);
      if Refetchable(qs[|qs| - 1], socketId) then front + [|qs| - 1] else front
  }

  lemma {:induction false} PositionsRefetchable(qs: seq<Query>, socketId: Option<string>)
    ensures forall k :: 0 <= k < |RefetchedPositions(qs, socketId)| ==>
      Refetchable(qs[RefetchedPositions(qs, socketId)[k]], socketId)
    decreases |qs|
  {
    if |qs| > 0 {
      var front := qs[..|qs| - 1];
      PositionsRefetchable(front, socketId);
      var ix, ixf := RefetchedPositions(qs, socketId), RefetchedPositions(front, socketId);
      var hit := Refetchable(qs[|qs| - 1], socketId);
      assert ix == ixf + (if hit then [|qs| - 1] else []);
      forall k | 0 <= k < |ix| ensures Refetchable(qs[ix[k]], socketId) {
        if k < |ixf| {
          assert ix[k] == ixf[k];
          assert Refetchable(front[ixf[k]], socketId);
          assert front[ixf[k]] == qs[ixf[k]];
        } else {
          assert hit && ix[k] == |qs| - 1;
        }
      }
    }
  }

  lemma {:induction false} PositionsIncrease(qs: seq<Query>, socketId: Option<string>)
    ensures forall k, l :: 0 <= k < l < |RefetchedPositions(qs, socketId)| ==>
      RefetchedPositions(qs, socketId)[k] < RefetchedPositions(qs, socketId)[l]
    decreases |qs|
  {
    if |qs| > 0 {
      var front := qs[..|qs| - 1];
      PositionsIncrease(front, socketId);
      var ix, ixf := RefetchedPositions(qs, socketId), RefetchedPositions(front, socketId);
      var hit := Refetchable(qs[|qs| - 1], socketId);
      assert ix == ixf + (if hit then [|qs| - 1] else []);
      forall k, l | 0 <= k < l < |ix| ensures ix[k] < ix[l] {
        assert k < |ixf| && ix[k] == ixf[k] && ixf[k] < |front|;
        if l < |ixf| {
          assert ix[l] == ixf[l] && ixf[k] < ixf[l];
        } else {
          assert ix[l] == |qs| - 1;
        }
      }
    }
  }

  lemma {:induction false} PositionsComplete(qs: seq<Query>, socketId: Option<string>)
    ensures forall i :: 0 <= i < |qs| && Refetchable(qs[i], socketId) ==> i in RefetchedPositions(qs, socketId)
    decreases |qs|
  {
    if |qs| > 0 {
      var front := qs[..|qs| - 1];
      PositionsComplete(front, socketId);
      assert forall i :: 0 <= i < |front| ==> front[i] == qs[i];
    }
  }

  /** The positions are increasing and are exactly those of the refetchable queries. */
  lemma RefetchedPositionsExact(qs: seq<Query>, socketId: Option<string>)
    ensures var ix := RefetchedPositions(qs, socketId);
      && (forall k :: 0 <= k < |ix| ==> Refetchable(qs[ix[k]], socketId))
      && (forall k, l :: 0 <= k < l < |ix| ==> ix[k] < ix[l])
      && (forall i :: 0 <= i < |qs| && Refetchable(qs[i], socketId) ==> i in ix)
  {
    PositionsRefetchable(qs, socketId);
    PositionsIncrease(qs, socketId);
    PositionsComplete(qs, socketId);
  }

  /** The refetches are the fetches of the queries at those positions, one each, in order. */
  lemma {:induction false} RefetchesMatchPositions(qs: seq<Query>, socketId: Option<string>)
    ensures var r := RefetchesFor(qs, socketId);
      var ix := RefetchedPositions(qs, socketId);
      && |r| == |ix|
      && forall k :: 0 <= k < |r| ==> r[k] == FetchOf(qs[ix[k]])
    decreases |qs|
  {
    if |qs| > 0 {
      var front, last := qs[..|qs| - 1], qs[|qs| - 1];
      RefetchesMatchPositions(front, socketId);
      var r, rf := RefetchesFor(qs, socketId), RefetchesFor(front, socketId);
      var ix, ixf := RefetchedPositions(qs, socketId), RefetchedPositions(front, socketId);
      var hit := Refetchable(last, socketId);
      assert r == rf + (if hit then [FetchOf(last)] else []);
      assert ix == ixf + (if hit then [|qs| - 1] else []);
      forall k | 0 <= k < |r| ensures r[k] == FetchOf(qs[ix[k]]) {
        if k < |rf| {
          assert r[k] == rf[k] && ix[k] == ixf[k];
          assert front[ixf[k]] == qs[ixf[k]];
        }
      }
    }
  }

  /** The refetches are exactly the fetches of the refetchable queries, one each, in registry
      order: nothing invented, nothing repeated, nothing missed. */
  lemma RefetchesFollowRegistry(qs: seq<Query>, socketId: Option<string>)
    ensures var r := RefetchesFor(qs, socketId);
      var ix := RefetchedPositions(qs, socketId);
      && |r| == |ix|
      && (forall k :: 0 <= k < |r| ==> r[k] == FetchOf(qs[ix[k]]))
      && (forall k :: 0 <= k < |ix| ==> Refetchable(qs[ix[k]], socketId))
      && (forall k, l :: 0 <= k < l < |ix| ==> ix[k] < ix[l])
      && (forall i :: 0 <= i < |qs| && Refetchable(qs[i], socketId) ==> i in ix)
  {
    RefetchesMatchPositions(qs, socketId);
    RefetchedPositionsExact(qs, socketId);
  }

  function CommitAll(s: Store, actions: seq<Action>): (s': Store)
    ensures s'.log == s.log + actions
    ensures s'.counter == s.counter && s'.now == s.now && s'.timers == s.timers
    decreases |actions|
  {
    if |actions| == 0 then s else CommitAll(Commit(s, actions[0]), actions[1..])
  }

  /** The query middleware followed by the reducer. */
  function Dispatch(s: Store, a: Action): (s': Store)
    ensures s'.now == s.now
    ensures |s.log| < |s'.log| && s'.log[..|s.log|] == s.log
    ensures !a.Request? && !a.Refetch? ==> s'.log[|s.log|] == a
    ensures a.Refetch? ==> s'.log[|s'.log| - 1] == a
    ensures a.Request? ==> s'.log[|s'.log| - 1].Request? && s'.log[|s'.log| - 1].metaQueryId.Some?
    ensures !a.Request? ==> s'.counter == s.counter
    ensures !a.Request? && !a.Release? ==> s'.timers == s.timers
  {
    match a
    case Request(name, params, socketId, _) => RequestQuery(s, name, params, socketId).store
    case Release(id) => ReleaseQuery(s, id)
    case Refetch(id) => RefetchQuery(s, id)
    case Connect(socketId) => ConnectSocket(s, socketId)
    case MethodResult(_, outcome, Some(id)) => Commit(Commit(s, a), Update(id, PayloadOf(outcome)))
    case _ => Commit(s, a)
  }

  /** A release: one user fewer and, when the last user leaves, a cleanup timer. */
  function ReleaseQuery(s: Store, id: string): (s': Store)
    ensures s'.log == s.log + [Release(id)]
    ensures s'.now == s.now && s'.counter == s.counter
  {
    match IndexOfId(s.queries, id)
    case None => Commit(s, Release(id))
    case Some(i) =>
      var released := Commit(s, Release(id));
      if s.queries[i].users <= 1 then Schedule(released, id) else released
  }

  /** A refetch: a registered query's method is called again before the refetch passes on. */
  function RefetchQuery(s: Store, id: string): (s': Store)
    ensures |s'.log| > |s.log| && s'.log[..|s.log|] == s.log && s'.log[|s'.log| - 1] == Refetch(id)
    ensures s'.now == s.now && s'.counter == s.counter && s'.timers == s.timers
  {
    match IndexOfId(s.queries, id)
    case None => Commit(s, Refetch(id))
    case Some(i) => Commit(Commit(s, FetchOf(s.queries[i])), Refetch(id))
  }

  /** A reconnect of `socketId` passes on, then every ready query of that socket is fetched again. */
  function ConnectSocket(s: Store, socketId: Option<string>): (s': Store)
    ensures s'.log == s.log + [Connect(socketId)] + RefetchesFor(s.queries, socketId)
    ensures s'.now == s.now && s'.counter == s.counter && s'.timers == s.timers
  {
    CommitAll(Commit(s, Connect(socketId)), RefetchesFor(s.queries, socketId))
  }

  /** The update a method's outcome makes: its result's `entities`, or the error it threw. */
  function PayloadOf(outcome: Outcome): (p: UpdatePayload)
    ensures outcome.Returned? <==> p.Entities?
  {
    match outcome
    case Returned(result) => Entities(Field(result, "entities"))
    case Threw(error) => Failed(error)
  }

  /** A cleanup timer fires: the query, if still registered, is deleted with its last entities. */
  function FireCleanup(s: Store, id: string): (s': Store)
    ensures s'.counter == s.counter && s'.now == s.now && s'.timers == s.timers
    ensures !Registered(s, id) ==> s' == s
    ensures Registered(s, id) ==>
      s'.log == s.log + [Delete(id, s.queries[IndexOfId(s.queries, id).value].entities)]
    ensures forall q :: q in s'.queries <==> q in s.queries && q.id != id
  {
    match IndexOfId(s.queries, id)
    case Some(i) => Commit(s, Delete(id, s.queries[i].entities))
    case None =>
      assert forall q :: q in s.queries ==> q.id != id;
      s
  }

  /** Advances the virtual clock to `until`, firing every due cleanup timer in order. */
  function Tick(s: Store, until: nat): (s': Store)
    requires s.now <= until
    ensures s'.now == until && s'.counter == s.counter
    ensures |s.log| <= |s'.log| && s'.log[..|s.log|] == s.log
    ensures forall k :: |s.log| <= k < |s'.log| ==> s'.log[k].Delete?
    ensures forall q :: q in s'.queries ==> q in s.queries
    decreases |s.timers|
  {
    if |s.timers| > 0 && s.timers[0].due <= until then
      var t := s.timers[0];
      var popped := s.(timers := s.timers[1..], now := if t.due < s.now then s.now else t.due);
      var fired := FireCleanup(popped, t.queryId);
      assert fired.log == s.log || fired.log == s.log + [Delete(t.queryId, fired.log[|s.log|].entities)];
      var r := Tick(fired, until);
      assert r.log[..|s.log|] == r.log[..|fired.log|][..|s.log|];
      r
    else s.(now := until)
  }

  // ---------------------------------------------------------------------------
  // The registry invariant

  /** No two queries share an id or a dedup key. */
  predicate Distinct(qs: seq<Query>) {
    forall i, j :: 0 <= i < j < |qs| ==> qs[i].id != qs[j].id && KeyOf(qs[i]) != KeyOf(qs[j])
  }

  /** An id the counter has already handed out, or one that is not a counter value at all. */
  predicate Issued(id: string, counter: nat) {
    !(Decimal.IsNumeral(id) && Decimal.Parse(id) > counter)
  }

  predicate AllIssued(qs: seq<Query>, counter: nat) {
    forall q :: q in qs ==> Issued(q.id, counter)
  }

  /** Timers fire in order, at most one per query. */
  predicate TimersOrdered(ts: seq<CleanupTimer>) {
    forall i, j :: 0 <= i < j < |ts| ==> ts[i].due <= ts[j].due && ts[i].queryId != ts[j].queryId
  }

  /** No timer lies further ahead than the cleanup timeout. */
  predicate TimersBounded(ts: seq<CleanupTimer>, now: nat) {
    forall t :: t in ts ==> t.due <= now + Client.QueryCleanupTimeout
  }

  predicate TimersWellFormed(ts: seq<CleanupTimer>, now: nat) {
    TimersOrdered(ts) && TimersBounded(ts, now)
  }

  predicate Valid(s: Store) {
    Distinct(s.queries) && AllIssued(s.queries, s.counter) && TimersWellFormed(s.timers, s.now)
  }

  function Initial(): (s: Store)
    ensures Valid(s) && s.queries == [] && s.timers == [] && s.log == []
  {
    Store([], 0, 0, [], [])
  }

  /** Two registries that agree, position by position, on ids and keys. */
  predicate SameIdentities(qs: seq<Query>, r: seq<Query>) {
    |r| == |qs| && forall j :: 0 <= j < |qs| ==> r[j].id == qs[j].id && KeyOf(r[j]) == KeyOf(qs[j])
  }

  lemma SameIdentitiesKeepInvariant(qs: seq<Query>, r: seq<Query>, counter: nat)
    requires SameIdentities(qs, r)
    ensures Distinct(qs) ==> Distinct(r)
    ensures AllIssued(qs, counter) ==> AllIssued(r, counter)
    ensures forall id :: IndexOfId(r, id) == IndexOfId(qs, id)
  {
    forall id ensures IndexOfId(r, id) == IndexOfId(qs, id) {
      SameIdentitiesIndexOf(qs, r, id);
    }
    if AllIssued(qs, counter) {
      forall q | q in r ensures Issued(q.id, counter) {
        var j :| 0 <= j < |r| && r[j] == q;
        assert qs[j] in qs;
      }
    }
  }

  lemma {:induction false} SameIdentitiesIndexOf(qs: seq<Query>, r: seq<Query>, id: string)
    requires SameIdentities(qs, r)
    ensures IndexOfId(r, id) == IndexOfId(qs, id)
    decreases |qs|
  {
    if |qs| > 0 && qs[0].id != id {
      SameIdentitiesIndexOf(qs[1..], r[1..], id);
    }
  }

  lemma {:induction false} RemoveIdKeepsDistinct(qs: seq<Query>, id: string)
    requires Distinct(qs)
    ensures Distinct(RemoveId(qs, id))
    decreases |qs|
  {
    if |qs| > 0 {
      RemoveIdKeepsDistinct(qs[1..], id);
      var rest := RemoveId(qs[1..], id);
      if qs[0].id != id {
        forall q | q in rest ensures q.id != qs[0].id && KeyOf(q) != KeyOf(qs[0]) {
          var j :| 0 <= j < |qs[1..]| && qs[1..][j] == q;
          assert qs[j + 1] == q;
        }
        var r := [qs[0]] + rest;
        forall i, j | 0 <= i < j < |r| ensures r[i].id != r[j].id && KeyOf(r[i]) != KeyOf(r[j]) {
          if i == 0 {
            assert r[j] in rest;
          } else {
            assert r[i] == rest[i - 1] && r[j] == rest[j - 1];
          }
        }
      }
    }
  }

  lemma {:induction false} RemoveAbsentId(qs: seq<Query>, id: string)
    requires forall i :: 0 <= i < |qs| ==> qs[i].id != id
    ensures RemoveId(qs, id) == qs
    decreases |qs|
  {
    if |qs| > 0 {
      RemoveAbsentId(qs[1..], id);
      assert [qs[0]] + qs[1..] == qs;
    }
  }

  lemma ConsOrdered(t: CleanupTimer, rest: seq<CleanupTimer>)
    requires TimersOrdered(rest)
    requires forall u :: u in rest ==> t.due <= u.due && t.queryId != u.queryId
    ensures TimersOrdered([t] + rest)
  {
    var r := [t] + rest;
    forall i, j | 0 <= i < j < |r| ensures r[i].due <= r[j].due && r[i].queryId != r[j].queryId {
      assert r[j] == rest[j - 1];
      if i > 0 {
        assert r[i] == rest[i - 1];
      }
    }
  }

  lemma {:induction false} CancelTimerKeepsOrder(ts: seq<CleanupTimer>, id: string)
    requires TimersOrdered(ts)
    ensures TimersOrdered(CancelTimer(ts, id))
    decreases |ts|
  {
    if |ts| > 0 {
      assert TimersOrdered(ts[1..]);
      CancelTimerKeepsOrder(ts[1..], id);
      if ts[0].queryId != id {
        var rest := CancelTimer(ts[1..], id);
        forall u | u in rest ensures ts[0].due <= u.due && ts[0].queryId != u.queryId {
          var j :| 0 <= j < |ts[1..]| && ts[1..][j] == u;
          assert ts[j + 1] == u;
        }
        ConsOrdered(ts[0], rest);
      }
    }
  }

  lemma CancelTimerKeepsWellFormed(ts: seq<CleanupTimer>, now: nat, id: string)
    requires TimersWellFormed(ts, now)
    ensures TimersWellFormed(CancelTimer(ts, id), now)
  {
    CancelTimerKeepsOrder(ts, id);
  }

  /** Starting a cleanup timer keeps the timers in order with at most one per query. */
  lemma ScheduleKeepsWellFormed(s: Store, id: string)
    requires TimersWellFormed(s.timers, s.now)
    ensures TimersWellFormed(Schedule(s, id).timers, s.now)
  {
    CancelTimerKeepsWellFormed(s.timers, s.now, id);
    var kept := CancelTimer(s.timers, id);
    var r := Schedule(s, id).timers;
    var t := CleanupTimer(id, s.now + Client.QueryCleanupTimeout);
    assert r == kept + [t];
    forall i, j | 0 <= i < j < |r| ensures r[i].due <= r[j].due && r[i].queryId != r[j].queryId {
      assert r[i] == kept[i] && r[i] in kept;
      if j < |kept| {
        assert r[j] == kept[j];
      } else {
        assert r[j] == t;
        assert r[i] in s.timers;
      }
    }
  }

  /** Every reducer action except `CREATE` keeps ids and keys distinct and already issued. */
  lemma ReduceKeepsInvariant(qs: seq<Query>, a: Action, counter: nat)
    requires !a.Create?
    requires Distinct(qs) && AllIssued(qs, counter)
    ensures Distinct(Reduce(qs, a)) && AllIssued(Reduce(qs, a), counter)
  {
    var r := Reduce(qs, a);
    if a.Delete? {
      RemoveIdKeepsDistinct(qs, a.queryId);
    } else if a.Request? || a.Release? || a.Update? {
      assert SameIdentities(qs, r);
      SameIdentitiesKeepInvariant(qs, r, counter);
    }
  }

  lemma IndexOfDistinctId(qs: seq<Query>, i: nat)
    requires Distinct(qs) && i < |qs|
    ensures IndexOfId(qs, qs[i].id) == Some(i)
  {
  }

  lemma IndexOfLastId(qs: seq<Query>, q: Query)
    requires forall i :: 0 <= i < |qs| ==> qs[i].id != q.id
    ensures IndexOfId(qs + [q], q.id) == Some(|qs|)
  {
    assert (qs + [q])[|qs|].id == q.id;
  }

  /** The id the counter hands out next is held by no registered query. */
  lemma NextIdUnused(qs: seq<Query>, counter: nat)
    requires AllIssued(qs, counter)
    ensures forall i :: 0 <= i < |qs| ==> qs[i].id != Client.NextUniqueId(counter).id
  {
    forall i | 0 <= i < |qs| ensures qs[i].id != Client.NextUniqueId(counter).id {
      assert qs[i] in qs;
    }
  }

  lemma AppendFreshKeepsInvariant(qs: seq<Query>, q: Query, counter: nat)
    requires Distinct(qs) && AllIssued(qs, counter)
    requires forall i :: 0 <= i < |qs| ==> qs[i].id != q.id && KeyOf(qs[i]) != KeyOf(q)
    requires Issued(q.id, counter + 1)
    ensures Distinct(qs + [q]) && AllIssued(qs + [q], counter + 1)
  {
    var r := qs + [q];
    forall i, j | 0 <= i < j < |r| ensures r[i].id != r[j].id && KeyOf(r[i]) != KeyOf(r[j]) {
      assert r[i] == qs[i];
      if j < |qs| {
        assert r[j] == qs[j];
      }
    }
  }

  lemma {:induction false} CreateFreshAppends(qs: seq<Query>, q: Query)
    requires forall i :: 0 <= i < |qs| ==> qs[i].id != q.id
    requires q.state == Pending && q.users == 0 && q.entities == Undefined && q.error == Undefined
    ensures Reduce(qs, Create(q.name, q.params, q.id, q.socketId)) == qs + [q]
  {
    RemoveAbsentId(qs, q.id);
  }

  lemma {:induction false} RequestLastAddsUser(qs: seq<Query>, q: Query)
    requires forall i :: 0 <= i < |qs| ==> qs[i].id != q.id
    ensures Reduce(qs + [q], Request(q.name, q.params, q.socketId, Some(q.id))) == qs + [q.(users := q.users + 1)]
  {
    IndexOfLastId(qs, q);
    var all := qs + [q];
    assert all[|qs|] == q;
    RequestBumpsUsers(all, |qs|, q.name, q.params, q.socketId);
    assert all[|qs| := q.(users := q.users + 1)] == qs + [q.(users := q.users + 1)];
  }

  lemma RequestNewQueryRegistry(s: Store, name: string, params: Value, socketId: Option<string>)
    requires AllIssued(s.queries, s.counter)
    requires IndexOfKey(s.queries, Key(name, params, socketId)).None?
    ensures RequestQuery(s, name, params, socketId).store.queries
      == s.queries + [Query(Client.NextUniqueId(s.counter).id, name, params, socketId, Pending, 1, Undefined, Undefined)]
  {
    var id := Client.NextUniqueId(s.counter).id;
    NextIdUnused(s.queries, s.counter);
    var q := Query(id, name, params, socketId, Pending, 0, Undefined, Undefined);
    CreateFreshAppends(s.queries, q);
    RequestLastAddsUser(s.queries, q);
    var created := Reduce(s.queries, Create(name, params, id, socketId));
    assert Reduce(created, Method(name, params, id, socketId)) == created;
  }

  // ---------------------------------------------------------------------------
  // Requests

  /** A request for a key nobody registered allocates the next id, which no query holds yet,
      and registers a pending query with one user under it. */
  lemma RequestNewQuery(s: Store, name: string, params: Value, socketId: Option<string>)
    requires Valid(s)
    requires IndexOfKey(s.queries, Key(name, params, socketId)).None?
    ensures var r := RequestQuery(s, name, params, socketId);
      && r.queryId == Decimal.ToDecimal(s.counter + 1)
      && !Registered(s, r.queryId)
      && r.store.queries == s.queries + [Query(r.queryId, name, params, socketId, Pending, 1, Undefined, Undefined)]
      && Valid(r.store)
  {
    var a := Client.NextUniqueId(s.counter);
    NextIdUnused(s.queries, s.counter);
    RequestNewQueryRegistry(s, name, params, socketId);
    var q := Query(a.id, name, params, socketId, Pending, 1, Undefined, Undefined);
    AppendFreshKeepsInvariant(s.queries, q, s.counter);
  }

  /** On a fresh store the first request is given id "1": the query is created, its method
      called, and the request passed on tagged with that id. */
  lemma FirstRequestGetsIdOne(name: string, params: Value, socketId: Option<string>)
    ensures var r := RequestQuery(Initial(), name, params, socketId);
      && r.queryId == "1"
      && r.store.log == [Create(name, params, "1", socketId), Method(name, params, "1", socketId),
                         Request(name, params, socketId, Some("1"))]
      && r.store.queries == [Query("1", name, params, socketId, Pending, 1, Undefined, Undefined)]
  {
    var s := Initial();
    assert Decimal.ToDecimal(1) == "1";
    RequestNewQuery(s, name, params, socketId);
  }

  /** A request for a registered key returns that query's id, adds one user, cancels its
      pending cleanup and creates nothing. */
  lemma RequestExistingQuery(s: Store, name: string, params: Value, socketId: Option<string>)
    requires Valid(s)
    requires IndexOfKey(s.queries, Key(name, params, socketId)).Some?
    ensures var i := IndexOfKey(s.queries, Key(name, params, socketId)).value;
      var r := RequestQuery(s, name, params, socketId);
      && r.queryId == s.queries[i].id
      && r.store.queries == s.queries[i := s.queries[i].(users := s.queries[i].users + 1)]
      && (forall t :: t in r.store.timers ==> t.queryId != r.queryId)
      && Valid(r.store)
  {
    var i := IndexOfKey(s.queries, Key(name, params, socketId)).value;
    RequestExistingStore(s, name, params, socketId);
    CancelTimerKeepsWellFormed(s.timers, s.now, s.queries[i].id);
    UsersKeepValid(s.(timers := CancelTimer(s.timers, s.queries[i].id)), i, s.queries[i].users + 1);
  }

  /** The store a request for a registered key leaves behind. */
  lemma RequestExistingStore(s: Store, name: string, params: Value, socketId: Option<string>)
    requires Distinct(s.queries)
    requires IndexOfKey(s.queries, Key(name, params, socketId)).Some?
    ensures var i := IndexOfKey(s.queries, Key(name, params, socketId)).value;
      var id := s.queries[i].id;
      RequestQuery(s, name, params, socketId)
        == Requested(s.(timers := CancelTimer(s.timers, id),
                        queries := s.queries[i := s.queries[i].(users := s.queries[i].users + 1)],
                        log := s.log + [Request(name, params, socketId, Some(id))]), id)
  {
    var i := IndexOfKey(s.queries, Key(name, params, socketId)).value;
    IndexOfDistinctId(s.queries, i);
    RequestBumpsUsers(s.queries, i, name, params, socketId);
  }

  /** Changing how many users a query has keeps the invariant. */
  lemma UsersKeepValid(s: Store, i: nat, users: nat)
    requires Valid(s) && i < |s.queries|
    ensures Valid(s.(queries := s.queries[i := s.queries[i].(users := users)]))
  {
    var qs' := s.queries[i := s.queries[i].(users := users)];
    assert SameIdentities(s.queries, qs');
    SameIdentitiesKeepInvariant(s.queries, qs', s.counter);
  }

  lemma {:induction false} RequestBumpsUsers(qs: seq<Query>, i: nat, name: string, params: Value, socketId: Option<string>)
    requires i < |qs| && IndexOfId(qs, qs[i].id) == Some(i)
    ensures Reduce(qs, Request(name, params, socketId, Some(qs[i].id))) == qs[i := qs[i].(users := qs[i].users + 1)]
  {
  }

  /** Asking twice for the same key yields the same id and calls the method only once. */
  lemma RequestTwiceCallsOnce(s: Store, name: string, params: Value, socketId: Option<string>)
    requires Valid(s)
    requires IndexOfKey(s.queries, Key(name, params, socketId)).None?
    ensures var first := RequestQuery(s, name, params, socketId);
      var second := RequestQuery(first.store, name, params, socketId);
      && second.queryId == first.queryId
      && second.store.log == first.store.log + [Request(name, params, socketId, Some(first.queryId))]
  {
    RequestNewQuery(s, name, params, socketId);
    var first := RequestQuery(s, name, params, socketId);
    var k := Key(name, params, socketId);
    var qs := first.store.queries;
    assert KeyOf(qs[|s.queries|]) == k;
    var i := IndexOfKey(qs, k).value;
    assert i == |s.queries| by {
      assert Distinct(qs);
    }
    RequestExistingQuery(first.store, name, params, socketId);
  }

  // ---------------------------------------------------------------------------
  // Results, releases, cleanup

  /** A method result tagged with a registered query is followed by an update carrying the
      result's entities, which the query then holds, ready and without error. */
  lemma ResultUpdatesQuery(s: Store, methodId: string, result: Value, id: string)
    requires Registered(s, id)
    ensures var r := Dispatch(s, MethodResult(methodId, Returned(result), Some(id)));
      var i := IndexOfId(s.queries, id).value;
      && r.log == s.log + [MethodResult(methodId, Returned(result), Some(id)),
                           Update(id, Entities(Field(result, "entities")))]
      && r.queries == s.queries[i := s.queries[i].(state := Ready, entities := Field(result, "entities"),
                                                    error := Undefined)]
  {
    var a := MethodResult(methodId, Returned(result), Some(id));
    var passed := Commit(s, a);
    assert passed.queries == s.queries;
    assert Dispatch(s, a) == Commit(passed, Update(id, Entities(Field(result, "entities"))));
    UpdateEntitiesMakesReady(s.queries, id, Field(result, "entities"));
  }

  lemma {:induction false} UpdateEntitiesMakesReady(qs: seq<Query>, id: string, entities: Value)
    requires IndexOfId(qs, id).Some?
    ensures var i := IndexOfId(qs, id).value;
      Reduce(qs, Update(id, Entities(entities)))
        == qs[i := qs[i].(state := Ready, entities := entities, error := Undefined)]
  {
    var i := IndexOfId(qs, id).value;
    assert IndexOfId(qs, id) == Some(i);
  }

  /** A failed method call leaves the query ready with the error recorded and its cached
      entities untouched. */
  lemma FailureRecordsError(s: Store, methodId: string, error: Value, id: string)
    requires Registered(s, id)
    ensures var r := Dispatch(s, MethodResult(methodId, Threw(error), Some(id)));
      var i := IndexOfId(s.queries, id).value;
      && r.log == s.log + [MethodResult(methodId, Threw(error), Some(id)), Update(id, Failed(error))]
      && r.queries == s.queries[i := s.queries[i].(state := Ready, error := error)]
  {
    var a := MethodResult(methodId, Threw(error), Some(id));
    var passed := Commit(s, a);
    assert passed.queries == s.queries;
    assert Dispatch(s, a) == Commit(passed, Update(id, Failed(error)));
    UpdateFailedKeepsEntities(s.queries, id, error);
  }

  lemma {:induction false} UpdateFailedKeepsEntities(qs: seq<Query>, id: string, error: Value)
    requires IndexOfId(qs, id).Some?
    ensures var i := IndexOfId(qs, id).value;
      Reduce(qs, Update(id, Failed(error))) == qs[i := qs[i].(state := Ready, error := error)]
  {
    var i := IndexOfId(qs, id).value;
    assert IndexOfId(qs, id) == Some(i);
  }

  /** Releasing an unknown query records the release and changes nothing else. */
  lemma ReleaseUnknown(s: Store, id: string)
    requires !Registered(s, id)
    ensures Dispatch(s, Release(id)) == s.(log := s.log + [Release(id)])
  {
  }

  /** Releasing while several users remain only drops the count; no deletion is scheduled. */
  lemma ReleaseWithOtherUsers(s: Store, id: string)
    requires Registered(s, id)
    requires s.queries[IndexOfId(s.queries, id).value].users > 1
    ensures var i := IndexOfId(s.queries, id).value;
      var r := Dispatch(s, Release(id));
      && r.timers == s.timers
      && r.queries == s.queries[i := s.queries[i].(users := s.queries[i].users - 1)]
  {
  }

  /** Releasing a query nobody uses any more leaves the count at zero and its state as it was. */
  lemma ReleaseAtZero(s: Store, id: string)
    requires Registered(s, id)
    requires s.queries[IndexOfId(s.queries, id).value].users == 0
    ensures Dispatch(s, Release(id)).queries == s.queries
  {
    var i := IndexOfId(s.queries, id).value;
    assert s.queries[i := s.queries[i].(users := 0)] == s.queries;
  }

  /** Releasing the last user passes the release on and starts the query's cleanup timer. */
  lemma LastReleaseSchedules(s: Store, id: string)
    requires Valid(s) && s.timers == []
    requires Registered(s, id)
    requires s.queries[IndexOfId(s.queries, id).value].users <= 1
    ensures var released := Dispatch(s, Release(id));
      var i := IndexOfId(s.queries, id).value;
      && released.log == s.log + [Release(id)]
      && released.timers == [CleanupTimer(id, s.now + Client.QueryCleanupTimeout)]
      && released.now == s.now
      && Distinct(released.queries)
      && IndexOfId(released.queries, id) == Some(i)
      && released.queries[i].entities == s.queries[i].entities
  {
    var i := IndexOfId(s.queries, id).value;
    ReleaseLastStore(s, i);
    UsersKeepValid(s, i, 0);
  }

  /** The store that releasing the last user of a query, with no timer pending, leaves behind. */
  lemma ReleaseLastStore(s: Store, i: nat)
    requires Distinct(s.queries) && s.timers == []
    requires i < |s.queries| && s.queries[i].users <= 1
    ensures var id := s.queries[i].id;
      Dispatch(s, Release(id))
        == s.(queries := s.queries[i := s.queries[i].(users := 0)],
              log := s.log + [Release(id)],
              timers := [CleanupTimer(id, s.now + Client.QueryCleanupTimeout)])
  {
    var id := s.queries[i].id;
    IndexOfDistinctId(s.queries, i);
    ReleaseDropsUser(s.queries, i);
    assert CancelTimer([], id) == [];
  }

  lemma {:induction false} ReleaseDropsUser(qs: seq<Query>, i: nat)
    requires i < |qs| && IndexOfId(qs, qs[i].id) == Some(i)
    ensures Reduce(qs, Release(qs[i].id)) == qs[i := qs[i].(users := if qs[i].users > 0 then qs[i].users - 1 else 0)]
  {
  }

  /** With one pending timer, time short of its due date fires nothing. */
  lemma TickBeforeDue(s: Store, until: nat)
    requires |s.timers| == 1 && s.now <= until < s.timers[0].due
    ensures Tick(s, until) == s.(now := until)
  {
  }

  /** With one pending timer, reaching its due date fires it. */
  lemma TickAtDue(s: Store)
    requires |s.timers| == 1 && s.now <= s.timers[0].due
    ensures Tick(s, s.timers[0].due)
      == FireCleanup(s.(timers := [], now := s.timers[0].due), s.timers[0].queryId)
  {
  }

  /** Firing the cleanup of a registered query deletes it along with its entities. */
  lemma FireCleanupDeletes(s: Store, id: string)
    requires Distinct(s.queries) && Registered(s, id)
    ensures FireCleanup(s, id).log == s.log + [Delete(id, s.queries[IndexOfId(s.queries, id).value].entities)]
    ensures !Registered(FireCleanup(s, id), id)
  {
    var fired := FireCleanup(s, id);
    assert forall q :: q in fired.queries ==> q.id != id;
  }

  /** Releasing the last user deletes the query, with its cached entities, once the cleanup
      timeout has passed, and not a millisecond earlier. */
  lemma LastReleaseDeletesAfterTimeout(s: Store, id: string)
    requires Valid(s) && s.timers == []
    requires Registered(s, id)
    requires s.queries[IndexOfId(s.queries, id).value].users <= 1
    ensures var released := Dispatch(s, Release(id));
      var entities := s.queries[IndexOfId(s.queries, id).value].entities;
      && Tick(released, s.now + Client.QueryCleanupTimeout - 1).log == s.log + [Release(id)]
      && Registered(Tick(released, s.now + Client.QueryCleanupTimeout - 1), id)
      && Tick(released, s.now + Client.QueryCleanupTimeout).log == s.log + [Release(id), Delete(id, entities)]
      && !Registered(Tick(released, s.now + Client.QueryCleanupTimeout), id)
  {
    LastReleaseSchedules(s, id);
    var released := Dispatch(s, Release(id));
    TickBeforeDue(released, s.now + Client.QueryCleanupTimeout - 1);
    TickAtDue(released);
    var popped := released.(timers := [], now := s.now + Client.QueryCleanupTimeout);
    FireCleanupDeletes(popped, id);
  }

  /** A new request for the same key at any moment before the cleanup timer fires cancels
      the deletion: the query survives, with its cached entities, no method call is made, and
      nothing is deleted however long the clock then runs. */
  lemma RequestWithinTimeoutKeepsQuery(s: Store, i: nat, wait: nat, until: nat)
    requires Valid(s) && s.timers == []
    requires i < |s.queries| && s.queries[i].users == 1
    requires s.now <= wait < s.now + Client.QueryCleanupTimeout && wait <= until
    ensures var q := s.queries[i];
      var released := Dispatch(s, Release(q.id));
      var again := RequestQuery(Tick(released, wait), q.name, q.params, q.socketId);
      var later := Tick(again.store, until);
      && again.queryId == q.id
      && later.log == s.log + [Release(q.id), Request(q.name, q.params, q.socketId, Some(q.id))]
      && later.queries == s.queries
  {
    var q := s.queries[i];
    var released := Dispatch(s, Release(q.id));
    ReleaseLastStore(s, i);
    UsersKeepValid(s, i, 0);
    TickBeforeDue(released, wait);
    var waited := Tick(released, wait);
    assert Valid(waited);
    RequestAgainRevives(waited, i);
    var again := RequestQuery(waited, q.name, q.params, q.socketId);
    assert again.store.queries == s.queries;
    TickIdle(again.store, until);
  }

  /** Asking again for a query whose only timer is its own cleanup cancels that timer and
      adds a user. */
  lemma RequestAgainRevives(s: Store, i: nat)
    requires Distinct(s.queries) && i < |s.queries|
    requires forall t :: t in s.timers ==> t.queryId == s.queries[i].id
    ensures var q := s.queries[i];
      var again := RequestQuery(s, q.name, q.params, q.socketId);
      again.queryId == q.id
    ensures var q := s.queries[i];
      var again := RequestQuery(s, q.name, q.params, q.socketId);
      again.store.log == s.log + [Request(q.name, q.params, q.socketId, Some(q.id))]
    ensures var q := s.queries[i];
      var again := RequestQuery(s, q.name, q.params, q.socketId);
      again.store.queries == s.queries[i := q.(users := q.users + 1)]
    ensures var q := s.queries[i];
      var again := RequestQuery(s, q.name, q.params, q.socketId);
      again.store.timers == []
  {
    var q := s.queries[i];
    var k := IndexOfKey(s.queries, KeyOf(q)).value;
    assert k == i;
    RequestExistingStore(s, q.name, q.params, q.socketId);
    CancelEveryTimer(s.timers, q.id);
  }

  lemma {:induction false} CancelEveryTimer(ts: seq<CleanupTimer>, id: string)
    requires forall t :: t in ts ==> t.queryId == id
    ensures CancelTimer(ts, id) == []
    decreases |ts|
  {
    if |ts| > 0 {
      assert ts[0] in ts;
      assert forall t :: t in ts[1..] ==> t in ts;
      CancelEveryTimer(ts[1..], id);
    }
  }

  /** With no timer pending, time passes and nothing else happens. */
  lemma TickIdle(s: Store, until: nat)
    requires s.timers == [] && s.now <= until
    ensures Tick(s, until) == s.(now := until)
  {
  }

  // ---------------------------------------------------------------------------
  // Refetching

  /** A reconnect of a socket refetches each of that socket's queries, in registry order,
      after the connect action, and nothing of any other socket. */
  lemma ConnectRefetchesSocket(s: Store, socketId: Option<string>)
    ensures var r := Dispatch(s, Connect(socketId));
      && r.log == s.log + [Connect(socketId)] + RefetchesFor(s.queries, socketId)
      && r.queries == s.queries
  {
    CommitAllOfMethodsKeepsQueries(Commit(s, Connect(socketId)), RefetchesFor(s.queries, socketId));
  }

  lemma {:induction false} CommitAllOfMethodsKeepsQueries(s: Store, actions: seq<Action>)
    requires forall a :: a in actions ==> a.Method?
    ensures CommitAll(s, actions).queries == s.queries
    decreases |actions|
  {
    if |actions| > 0 {
      assert actions[0] in actions;
      assert forall a :: a in actions[1..] ==> a in actions;
      CommitAllOfMethodsKeepsQueries(Commit(s, actions[0]), actions[1..]);
    }
  }

  /** An explicit refetch of a registered query calls its method again, before passing the
      refetch on, and leaves the registry (users, identity, cached entities) unchanged. */
  lemma RefetchCallsMethodFirst(s: Store, id: string)
    requires Registered(s, id)
    ensures var q := s.queries[IndexOfId(s.queries, id).value];
      var r := Dispatch(s, Refetch(id));
      && r.log == s.log + [Method(q.name, q.params, id, q.socketId), Refetch(id)]
      && r.queries == s.queries
  {
    var q := s.queries[IndexOfId(s.queries, id).value];
    var called := Commit(s, FetchOf(q));
    assert called.queries == s.queries && called.log == s.log + [FetchOf(q)];
    assert Dispatch(s, Refetch(id)) == Commit(called, Refetch(id));
  }

  // ---------------------------------------------------------------------------
  // The invariant is kept by everything the application and the server can do

  lemma ReleaseKeepsValid(s: Store, id: string)
    requires Valid(s)
    ensures Valid(Dispatch(s, Release(id)))
  {
    var passed := Commit(s, Release(id));
    ReduceKeepsInvariant(s.queries, Release(id), s.counter);
    assert Valid(passed);
    ScheduleKeepsWellFormed(passed, id);
    assert Dispatch(s, Release(id)) == passed || Dispatch(s, Release(id)) == Schedule(passed, id);
  }

  lemma ConnectKeepsValid(s: Store, socketId: Option<string>)
    requires Valid(s)
    ensures Valid(Dispatch(s, Connect(socketId)))
  {
    var passed := Commit(s, Connect(socketId));
    assert passed.queries == s.queries;
    CommitAllOfMethodsKeepsQueries(passed, RefetchesFor(s.queries, socketId));
  }

  lemma MethodResultKeepsValid(s: Store, methodId: string, outcome: Outcome, queryId: Option<string>)
    requires Valid(s)
    ensures Valid(Dispatch(s, MethodResult(methodId, outcome, queryId)))
  {
    var a := MethodResult(methodId, outcome, queryId);
    var passed := Commit(s, a);
    assert passed.queries == s.queries;
    if queryId.Some? {
      var payload := if outcome.Returned? then Entities(Field(outcome.result, "entities")) else Failed(outcome.error);
      assert Dispatch(s, a) == Commit(passed, Update(queryId.value, payload));
      ReduceKeepsInvariant(passed.queries, Update(queryId.value, payload), s.counter);
    }
  }

  lemma RequestKeepsValid(s: Store, name: string, params: Value, socketId: Option<string>, queryId: Option<string>)
    requires Valid(s)
    ensures Valid(Dispatch(s, Request(name, params, socketId, queryId)))
  {
    assert Dispatch(s, Request(name, params, socketId, queryId)) == RequestQuery(s, name, params, socketId).store;
    if IndexOfKey(s.queries, Key(name, params, socketId)).None? {
      RequestNewQuery(s, name, params, socketId);
    } else {
      RequestExistingQuery(s, name, params, socketId);
    }
  }

  lemma RefetchKeepsValid(s: Store, id: string)
    requires Valid(s)
    ensures Valid(Dispatch(s, Refetch(id)))
  {
    var r := Dispatch(s, Refetch(id));
    if Registered(s, id) {
      var called := Commit(s, FetchOf(s.queries[IndexOfId(s.queries, id).value]));
      assert called.queries == s.queries;
      assert r == Commit(called, Refetch(id));
    }
    assert r.queries == s.queries && r.timers == s.timers && r.counter == s.counter && r.now == s.now;
  }

  /** Every action other than a raw `CREATE` (which only the request path issues, for a key
      and id it has checked) keeps ids and keys distinct, ids issued and timers in order. */
  lemma DispatchKeepsValid(s: Store, a: Action)
    requires Valid(s) && !a.Create?
    ensures Valid(Dispatch(s, a))
  {
    match a
    case Request(name, params, socketId, queryId) => RequestKeepsValid(s, name, params, socketId, queryId);
    case Release(id) => ReleaseKeepsValid(s, id);
    case Refetch(id) => RefetchKeepsValid(s, id);
    case Connect(socketId) => ConnectKeepsValid(s, socketId);
    case MethodResult(methodId, outcome, queryId) => MethodResultKeepsValid(s, methodId, outcome, queryId);
    case _ =>
      ReduceKeepsInvariant(s.queries, a, s.counter);
  }

  /** Letting time pass keeps the invariant: due timers fire in order and the survivors stay ordered. */
  lemma {:induction false} TickKeepsValid(s: Store, until: nat)
    requires Valid(s) && s.now <= until
    ensures Valid(Tick(s, until))
    decreases |s.timers|
  {
    if |s.timers| > 0 && s.timers[0].due <= until {
      var t := s.timers[0];
      var popped := s.(timers := s.timers[1..], now := if t.due < s.now then s.now else t.due);
      assert TimersOrdered(popped.timers);
      assert forall u :: u in popped.timers ==> u in s.timers;
      var fired := FireCleanup(popped, t.queryId);
      if Registered(popped, t.queryId) {
        ReduceKeepsInvariant(popped.queries, Delete(t.queryId, popped.queries[IndexOfId(popped.queries, t.queryId).value].entities), s.counter);
      }
      TickKeepsValid(fired, until);
    } else {
      assert forall u :: u in s.timers ==> u.due <= until + Client.QueryCleanupTimeout;
    }
  }
}

=== FILE: sockets.dfy ===
/**
  The client's socket registry: `open`, `close` and `send` keyed by socket id, and the
  automatic reopen scheduled 5000 ms after a transport closes, driven by a virtual clock.
  Each transport created by `open` is identified by a fresh handle number.
 */
module Sockets {
  import opened Wrappers
  import opened Values

  /** Delay before a dropped socket is reopened. */
  const ReconnectDelay: nat := 5000

  /** A transport: its handle number and the endpoint it was opened against. */
  datatype Socket = Socket(handle: nat, endpoint: string)

  /** What the registry asks of transports, in order. */
  datatype Effect = Opened(handle: nat, endpoint: string) | Sent(handle: nat, msg: Value) | Closed(handle: nat)

  /** A pending reopen, scheduled by the close event of transport `handle` registered under `socketId`. */
  datatype ReconnectTimer = ReconnectTimer(due: nat, socketId: string, endpoint: string, handle: nat)

  datatype Registry = Registry(
    sockets: map<string, Socket>,
    nextHandle: nat,
    now: nat,
    timers: seq<ReconnectTimer>,
    effects: seq<Effect>)

  /** How a firing reopen timer decides whether its socket was closed on purpose. */
  datatype Guard =
    | ById        // the socket id is still registered (as the client is written)
    | ByInstance  // the very transport that dropped is still the registered one

  predicate TimersOrdered(ts: seq<ReconnectTimer>) {
    forall i, j :: 0 <= i < j < |ts| ==> ts[i].due <= ts[j].due
  }

  /** Registered handles are all older than the next handle; timers are in firing order and
      none lies further than one reconnect delay ahead. */
  predicate Valid(r: Registry) {
    && (forall id :: id in r.sockets ==> r.sockets[id].handle < r.nextHandle)
    && TimersOrdered(r.timers)
    && (forall i :: 0 <= i < |r.timers| ==> r.timers[i].due <= r.now + ReconnectDelay)
  }

  function Initial(): (r: Registry)
    ensures Valid(r) && r.sockets == map[] && r.timers == []
  {
    Registry(map[], 0, 0, [], [])
  }

  /** What `open` returns (the socket id) together with the registry it leaves behind. */
  datatype Opening = Opening(registry: Registry, socketId: string)

  /** Opens a transport under `socketId`; an id that is already registered throws. */
  function Open(r: Registry, endpoint: string, socketId: string): (res: Result<Opening>)
    ensures res.Failure? <==> socketId in r.sockets
    ensures res.Failure? ==> res.message == "Already opened, you need to close connection first."
    ensures res.Success? ==> var r', id := res.value.registry, res.value.socketId;
      && id == socketId
      && r'.sockets == r.sockets[socketId := Socket(r.nextHandle, endpoint)]
      && r'.nextHandle == r.nextHandle + 1
      && r'.effects == r.effects + [Opened(r.nextHandle, endpoint)]
      && r'.now == r.now && r'.timers == r.timers
    ensures res.Success? && Valid(r) ==> Valid(res.value.registry)
  {
    if socketId in r.sockets then Failure("Already opened, you need to close connection first.")
    else
      var socket := Socket(r.nextHandle, endpoint);
      Success(Opening(r.(sockets := r.sockets[socketId := socket],
                  nextHandle := r.nextHandle + 1,
                  effects := r.effects + [Opened(socket.handle, endpoint)]), socketId))
  }

  /** Explicit close: unregisters and closes the transport, or does nothing for an unknown id. */
  function Close(r: Registry, socketId: string): (r': Registry)
    ensures socketId !in r.sockets ==> r' == r
    ensures r'.sockets == r.sockets - {socketId}
    ensures socketId in r.sockets ==> r'.effects == r.effects + [Closed(r.sockets[socketId].handle)]
    ensures r'.now == r.now && r'.timers == r.timers && r'.nextHandle == r.nextHandle
    ensures Valid(r) ==> Valid(r')
  {
    if socketId in r.sockets then
      r.(sockets := r.sockets - {socketId}, effects := r.effects + [Closed(r.sockets[socketId].handle)])
    else r
  }

  /** Sends through the registered transport, or silently drops the message for an unknown id. */
  function Send(r: Registry, msg: Value, socketId: string): (r': Registry)
    ensures socketId !in r.sockets ==> r' == r
    ensures socketId in r.sockets ==> r' == r.(effects := r.effects + [Sent(r.sockets[socketId].handle, msg)])
  {
    if socketId in r.sockets then r.(effects := r.effects + [Sent(r.sockets[socketId].handle, msg)]) else r
  }

  /** The close event of transport `socket`, opened under `socketId`: a reopen is scheduled. */
  function OnTransportClose(r: Registry, socketId: string, socket: Socket): (r': Registry)
    ensures r'.timers == r.timers + [ReconnectTimer(r.now + ReconnectDelay, socketId, socket.endpoint, socket.handle)]
    ensures r'.sockets == r.sockets && r'.effects == r.effects && r'.now == r.now
    ensures Valid(r) ==> Valid(r')
  {
    r.(timers := r.timers + [ReconnectTimer(r.now + ReconnectDelay, socketId, socket.endpoint, socket.handle)])
  }

  /** Whether the timer still finds its socket registered, in the sense of the guard. */
  predicate StillRegistered(r: Registry, t: ReconnectTimer, g: Guard) {
    t.socketId in r.sockets && (g.ByInstance? ==> r.sockets[t.socketId].handle == t.handle)
  }

  /** A reopen timer fires: if its socket is still registered, the entry is dropped and the
      socket reopened against the same endpoint under the same id; otherwise nothing happens. */
  function Fire(r: Registry, t: ReconnectTimer, g: Guard): (r': Registry)
    ensures !StillRegistered(r, t, g) ==> r' == r
    ensures StillRegistered(r, t, g) ==>
      && r'.sockets == r.sockets[t.socketId := Socket(r.nextHandle, t.endpoint)]
      && r'.effects == r.effects + [Opened(r.nextHandle, t.endpoint)]
    ensures r'.sockets.Keys == r.sockets.Keys
    ensures r'.now == r.now && r'.timers == r.timers && r'.nextHandle >= r.nextHandle
    ensures r.effects <= r'.effects
    ensures Valid(r) ==> Valid(r')
  {
    if StillRegistered(r, t, g) then
      var cleared := r.(sockets := r.sockets - {t.socketId});
      Open(cleared, t.endpoint, t.socketId).value.registry
    else r
  }

  /** Advances the virtual clock to `until`, firing every due reopen timer in order. */
  function Advance(r: Registry, until: nat, g: Guard): (r': Registry)
    requires r.now <= until
    ensures r'.now == until
    ensures r'.sockets.Keys == r.sockets.Keys
    ensures r.effects <= r'.effects && r'.nextHandle >= r.nextHandle
    ensures Valid(r) ==> Valid(r')
    ensures Valid(r) ==> forall i :: 0 <= i < |r'.timers| ==> r'.timers[i].due > until
    decreases |r.timers|
  {
    if |r.timers| > 0 && r.timers[0].due <= until then
      var t := r.timers[0];
      var popped := r.(timers := r.timers[1..], now := if t.due < r.now then r.now else t.due);
      PopKeepsValid(r);
      Advance(Fire(popped, t, g), until, g)
    else if |r.timers| > 0 then
      assert Valid(r) ==> forall i :: 0 <= i < |r.timers| ==> r.timers[i].due > until;
      r.(now := until)
    else r.(now := until)
  }

  /** Taking the first timer off, with the clock moved up to its due time, keeps the invariant. */
  lemma PopKeepsValid(r: Registry)
    requires |r.timers| > 0
    ensures var t := r.timers[0];
      Valid(r) ==> Valid(r.(timers := r.timers[1..], now := if t.due < r.now then r.now else t.due))
  {
    if Valid(r) {
      var rest := r.timers[1..];
      assert forall i :: 0 <= i < |rest| ==> rest[i] == r.timers[i + 1];
    }
  }

  // ---------------------------------------------------------------------------
  // The reopen guard

  /** An explicitly closed socket stays closed: no amount of virtual time reopens it, whichever
      reopen timers are pending. */
  lemma {:induction false} ClosedStaysClosed(r: Registry, socketId: string, until: nat, g: Guard)
    requires r.now <= until
    requires socketId !in r.sockets
    ensures socketId !in Advance(r, until, g).sockets
    decreases |r.timers|
  {
  }

  /** Time passing leaves a socket's registration as it is while none of its own reopen
      timers falls due, whatever the timers of other sockets do. */
  lemma {:induction false} AdvanceSparesUntimedSocket(r: Registry, socketId: string, until: nat, g: Guard)
    requires r.now <= until
    requires socketId in r.sockets
    requires forall i :: 0 <= i < |r.timers| && r.timers[i].socketId == socketId ==> r.timers[i].due > until
    ensures Advance(r, until, g).sockets[socketId] == r.sockets[socketId]
    decreases |r.timers|
  {
    if |r.timers| > 0 && r.timers[0].due <= until {
      var t := r.timers[0];
      var popped := r.(timers := r.timers[1..], now := if t.due < r.now then r.now else t.due);
      var fired := Fire(popped, t, g);
      assert t.socketId != socketId;
      assert fired.sockets[socketId] == r.sockets[socketId];
      assert forall i :: 0 <= i < |fired.timers| ==> fired.timers[i] == r.timers[i + 1];
      AdvanceSparesUntimedSocket(fired, socketId, until, g);
    }
  }

  /** A due reopen timer fires: when it still finds its socket registered and is the only
      timer of that socket falling due, the socket ends up on a fresh transport to the timer's
      endpoint, and that opening is among the effects. */
  lemma {:induction false} AdvanceFiresDueTimer(r: Registry, i: nat, until: nat, g: Guard)
    requires Valid(r) && r.now <= until
    requires i < |r.timers| && r.timers[i].due <= until
    requires StillRegistered(r, r.timers[i], g)
    requires forall j :: 0 <= j < |r.timers| && j != i && r.timers[j].socketId == r.timers[i].socketId ==>
      r.timers[j].due > until
    ensures var t, r' := r.timers[i], Advance(r, until, g);
      && t.socketId in r'.sockets
      && r'.sockets[t.socketId].endpoint == t.endpoint
      && r'.sockets[t.socketId].handle >= r.nextHandle
      && Opened(r'.sockets[t.socketId].handle, t.endpoint) in r'.effects
    decreases |r.timers|
  {
    var t := r.timers[0];
    var fired := Fire(r.(timers := r.timers[1..], now := if t.due < r.now then r.now else t.due), t, g);
    if i == 0 {
      FiredSocketStays(r, fired, until, g);
    } else {
      FiringOtherTimerKeepsDue(r, fired, i, until, g);
      AdvanceFiresDueTimer(fired, i - 1, until, g);
    }
  }

  /** Firing the first timer, when it is not timer `i`, leaves timer `i` due, still registered
      and the only due one of its socket, one place further up. */
  lemma FiringOtherTimerKeepsDue(r: Registry, fired: Registry, i: nat, until: nat, g: Guard)
    requires Valid(r) && r.now <= until
    requires 0 < i < |r.timers| && r.timers[i].due <= until
    requires StillRegistered(r, r.timers[i], g)
    requires forall j :: 0 <= j < |r.timers| && j != i && r.timers[j].socketId == r.timers[i].socketId ==>
      r.timers[j].due > until
    requires var t := r.timers[0];
      fired == Fire(r.(timers := r.timers[1..], now := if t.due < r.now then r.now else t.due), t, g)
    ensures Valid(fired) && fired.now <= until && fired.nextHandle >= r.nextHandle
    ensures Advance(r, until, g) == Advance(fired, until, g)
    ensures fired.timers[i - 1] == r.timers[i] && StillRegistered(fired, r.timers[i], g)
    ensures forall j :: 0 <= j < |fired.timers| && j != i - 1 && fired.timers[j].socketId == r.timers[i].socketId ==>
      fired.timers[j].due > until
  {
    var ti, t := r.timers[i], r.timers[0];
    PopKeepsValid(r);
    assert forall j :: 0 <= j < |fired.timers| ==> fired.timers[j] == r.timers[j + 1];
    assert t.socketId != ti.socketId;
    assert fired.sockets[ti.socketId] == r.sockets[ti.socketId];
  }

  /** The socket reopened by the first timer keeps its new transport while the rest of the
      timers run, provided none of them is its own and due. */
  lemma FiredSocketStays(r: Registry, fired: Registry, until: nat, g: Guard)
    requires Valid(r) && r.now <= until && |r.timers| > 0 && r.timers[0].due <= until
    requires StillRegistered(r, r.timers[0], g)
    requires forall j :: 0 < j < |r.timers| && r.timers[j].socketId == r.timers[0].socketId ==> r.timers[j].due > until
    requires var t := r.timers[0];
      fired == Fire(r.(timers := r.timers[1..], now := if t.due < r.now then r.now else t.due), t, g)
    ensures Advance(r, until, g) == Advance(fired, until, g)
    ensures var t, r' := r.timers[0], Advance(fired, until, g);
      && t.socketId in r'.sockets
      && r'.sockets[t.socketId] == Socket(r.nextHandle, t.endpoint)
      && Opened(r.nextHandle, t.endpoint) in r'.effects
  {
    var t := r.timers[0];
    FireFirstOpens(r, fired, g);
    AdvanceStepsFirst(r, fired, until, g);
    AdvanceSparesUntimedSocket(fired, t.socketId, until, g);
    var r' := Advance(fired, until, g);
    assert r'.effects[|r.effects|] == Opened(r.nextHandle, t.endpoint);
  }

  /** Advancing past the first timer's due time is firing it and advancing the rest. */
  lemma AdvanceStepsFirst(r: Registry, fired: Registry, until: nat, g: Guard)
    requires r.now <= until && |r.timers| > 0 && r.timers[0].due <= until
    requires var t := r.timers[0];
      fired == Fire(r.(timers := r.timers[1..], now := if t.due < r.now then r.now else t.due), t, g)
    ensures fired.now <= until && Advance(r, until, g) == Advance(fired, until, g)
  {
  }

  /** Firing the first timer while its socket is still registered reopens that socket. */
  lemma FireFirstOpens(r: Registry, fired: Registry, g: Guard)
    requires |r.timers| > 0 && StillRegistered(r, r.timers[0], g)
    requires var t := r.timers[0];
      fired == Fire(r.(timers := r.timers[1..], now := if t.due < r.now then r.now else t.due), t, g)
    ensures var t := r.timers[0];
      && fired.sockets[t.socketId] == Socket(r.nextHandle, t.endpoint)
      && fired.effects == r.effects + [Opened(r.nextHandle, t.endpoint)]
    ensures forall j :: 0 <= j < |fired.timers| ==> fired.timers[j] == r.timers[j + 1]
  {
    var t := r.timers[0];
    assert StillRegistered(r.(timers := r.timers[1..], now := if t.due < r.now then r.now else t.due), t, g);
  }

  /** A transport drop of a socket that is not closed meanwhile is healed after exactly the
      reconnect delay: a new transport under the same id, against the same endpoint, while the
      reopens pending for other sockets run their course. One millisecond earlier the socket
      is still registered on the transport that dropped. */
  lemma DropIsHealedAfterDelay(r: Registry, socketId: string, g: Guard)
    requires Valid(r)
    requires socketId in r.sockets
    requires forall i :: 0 <= i < |r.timers| ==> r.timers[i].socketId != socketId
    ensures var socket := r.sockets[socketId];
      var dropped := OnTransportClose(r, socketId, socket);
      var healed := Advance(dropped, r.now + ReconnectDelay, g);
      && Advance(dropped, r.now + ReconnectDelay - 1, g).sockets[socketId] == socket
      && healed.sockets[socketId].endpoint == socket.endpoint
      && healed.sockets[socketId].handle >= r.nextHandle
      && healed.sockets[socketId] != socket
      && Opened(healed.sockets[socketId].handle, socket.endpoint) in healed.effects
  {
    DropWaitsForDelay(r, socketId, g);
    DropReopensAtDelay(r, socketId, g);
  }

  lemma DropWaitsForDelay(r: Registry, socketId: string, g: Guard)
    requires Valid(r)
    requires socketId in r.sockets
    requires forall i :: 0 <= i < |r.timers| ==> r.timers[i].socketId != socketId
    ensures var socket := r.sockets[socketId];
      Advance(OnTransportClose(r, socketId, socket), r.now + ReconnectDelay - 1, g).sockets[socketId] == socket
  {
    DropLeavesLastTimer(r, socketId);
    AdvanceSparesUntimedSocket(OnTransportClose(r, socketId, r.sockets[socketId]), socketId, r.now + ReconnectDelay - 1, g);
  }

  lemma DropReopensAtDelay(r: Registry, socketId: string, g: Guard)
    requires Valid(r)
    requires socketId in r.sockets
    requires forall i :: 0 <= i < |r.timers| ==> r.timers[i].socketId != socketId
    ensures var socket := r.sockets[socketId];
      var healed := Advance(OnTransportClose(r, socketId, socket), r.now + ReconnectDelay, g);
      && healed.sockets[socketId].endpoint == socket.endpoint
      && healed.sockets[socketId].handle >= r.nextHandle
      && healed.sockets[socketId] != socket
      && Opened(healed.sockets[socketId].handle, socket.endpoint) in healed.effects
  {
    DropLeavesLastTimer(r, socketId);
    var dropped := OnTransportClose(r, socketId, r.sockets[socketId]);
    AdvanceFiresDueTimer(dropped, |dropped.timers| - 1, r.now + ReconnectDelay, g);
    assert r.sockets[socketId].handle < r.nextHandle;
  }

  /** After the drop, every timer is due within the delay, the socket's own timer is the last
      and only one for it, and it names the socket's current transport. */
  lemma DropLeavesLastTimer(r: Registry, socketId: string)
    requires Valid(r)
    requires socketId in r.sockets
    requires forall i :: 0 <= i < |r.timers| ==> r.timers[i].socketId != socketId
    ensures var ts := OnTransportClose(r, socketId, r.sockets[socketId]).timers;
      && |ts| > 0
      && (forall i :: 0 <= i < |ts| ==> ts[i].due <= r.now + ReconnectDelay)
      && (forall i :: 0 <= i < |ts| && ts[i].socketId == socketId ==> ts[i].due > r.now + ReconnectDelay - 1)
      && ts[|ts| - 1] == ReconnectTimer(r.now + ReconnectDelay, socketId, r.sockets[socketId].endpoint, r.sockets[socketId].handle)
      && (forall i :: 0 <= i < |ts| - 1 ==> ts[i].socketId != socketId)
  {
    var ts := OnTransportClose(r, socketId, r.sockets[socketId]).timers;
    assert forall i :: 0 <= i < |r.timers| ==> ts[i] == r.timers[i];
  }

  /** As written, a reopen timer left over from an earlier drop displaces a socket the
      application closed and reopened within the delay: the fresh transport is unregistered
      without being closed, and a third one is opened. */
  lemma StaleTimerDisplacesReopenedSocket(r: Registry, t: ReconnectTimer)
    requires Valid(r)
    requires t.socketId in r.sockets && r.sockets[t.socketId].handle != t.handle
    ensures var r' := Fire(r, t, ById);
      && r'.sockets[t.socketId].handle != r.sockets[t.socketId].handle
      && r'.effects == r.effects + [Opened(r.nextHandle, t.endpoint)]
  {
  }

  /** The displacement is reachable from a fresh client: open, transport drop, close, open
      again at once, then let the delay pass. */
  lemma StaleTimerScenario(endpoint: string, socketId: string)
    ensures var started := Open(Initial(), endpoint, socketId).value.registry;
      var dropped := OnTransportClose(started, socketId, started.sockets[socketId]);
      var reopened := Open(Close(dropped, socketId), endpoint, socketId).value.registry;
      var later := Advance(reopened, ReconnectDelay, ById);
      && reopened.sockets[socketId].handle == 1
      && later.sockets[socketId].handle == 2
      && Closed(1) !in later.effects
  {
    var started := Open(Initial(), endpoint, socketId).value.registry;
    var dropped := OnTransportClose(started, socketId, started.sockets[socketId]);
    var reopened := Open(Close(dropped, socketId), endpoint, socketId).value.registry;
    var t := reopened.timers[0];
    var popped := reopened.(timers := [], now := t.due);
    assert Advance(reopened, ReconnectDelay, ById) == Advance(Fire(popped, t, ById), ReconnectDelay, ById);
    assert reopened.effects == [Opened(0, endpoint), Closed(0), Opened(1, endpoint)];
  }

  /** With the guard on the transport itself, a leftover timer never touches a socket that
      was reopened after the drop. */
  lemma StaleTimerSparesReopenedSocket(r: Registry, t: ReconnectTimer)
    requires t.socketId in r.sockets && r.sockets[t.socketId].handle != t.handle
    ensures Fire(r, t, ByInstance) == r
  {
  }

  /** With the guard on the transport itself, a socket the application reopened is never
      displaced by time passing: its registration survives every pending timer as long as the
      timers were scheduled by transports other than it. */
  lemma {:induction false} ReopenedSocketSurvives(r: Registry, socketId: string, until: nat)
    requires r.now <= until
    requires socketId in r.sockets
    requires forall i :: 0 <= i < |r.timers| ==>
      r.timers[i].socketId == socketId ==> r.timers[i].handle != r.sockets[socketId].handle
    ensures Advance(r, until, ByInstance).sockets[socketId] == r.sockets[socketId]
    decreases |r.timers|
  {
    if |r.timers| > 0 && r.timers[0].due <= until {
      var t := r.timers[0];
      var popped := r.(timers := r.timers[1..], now := if t.due < r.now then r.now else t.due);
      var fired := Fire(popped, t, ByInstance);
      assert fired.sockets[socketId] == r.sockets[socketId];
      assert forall i :: 0 <= i < |fired.timers| ==> fired.timers[i] == r.timers[i + 1];
      ReopenedSocketSurvives(fired, socketId, until);
    }
  }
}

=== FILE: storage.dfy ===
/**
  The in-memory key/value store that backs resume tokens. Each instance owns its own map;
  `set` and `del` always succeed and `get` of an absent key fails with "No such key: <key>".
  Promise results are modelled synchronously.
 */
module KeyValueStorage {
  import opened Wrappers

  /** The items live in a plain object's own properties. */
  datatype Storage<V> = Storage(items: map<string, V>)

  /** The key whose assignment on a plain object goes to the prototype accessor; a primitive
      value written there is not stored as an own property. Values are taken to be primitives,
      as the resume tokens are. */
  const ProtoKey: string := "__proto__"

  /** A fresh instance holds no key. */
  function New<V>(): (s: Storage<V>)
    ensures forall k :: Get(s, k).Failure?
    ensures ProtoKey !in s.items
  {
    Storage(map[])
  }

  /** Writes `key`; a (primitive) write to the prototype accessor key stores nothing. */
  function Set<V>(s: Storage<V>, key: string, value: V): (s': Storage<V>)
    ensures key == ProtoKey ==> s' == s
    ensures key != ProtoKey ==> key in s'.items && s'.items[key] == value
    ensures key != ProtoKey ==> s'.items.Keys == s.items.Keys + {key}
    ensures forall k :: k in s.items && k != key ==> s'.items[k] == s.items[k]
    ensures ProtoKey !in s.items ==> ProtoKey !in s'.items
  {
    if key == ProtoKey then s else Storage(s.items[key := value])
  }

  /** Removes `key` if present; deleting an absent key still succeeds and changes nothing. */
  function Del<V>(s: Storage<V>, key: string): (s': Storage<V>)
    ensures s'.items.Keys == s.items.Keys - {key}
    ensures forall k :: k in s'.items ==> s'.items[k] == s.items[k]
    ensures key !in s.items ==> s' == s
  {
    Storage(s.items - {key})
  }

  function Get<V>(s: Storage<V>, key: string): (r: Result<V>)
    ensures r.Success? <==> key in s.items
    ensures r.Success? ==> r.value == s.items[key]
    ensures r.Failure? ==> r.message == "No such key: " + key
  {
    if key in s.items then Success(s.items[key]) else Failure("No such key: " + key)
  }

  /** Reading a key right after writing it yields the written value, except for the prototype
      accessor key, whose read keeps failing when it was not an own key before. */
  lemma GetAfterSet<V>(s: Storage<V>, key: string, value: V)
    ensures key != ProtoKey ==> Get(Set(s, key, value), key) == Success(value)
    ensures key == ProtoKey && ProtoKey !in s.items ==>
      Get(Set(s, key, value), key) == Failure("No such key: __proto__")
  {
  }

  /** Writing one key never changes what another key reads. */
  lemma GetAfterSetOther<V>(s: Storage<V>, key: string, value: V, other: string)
    requires other != key
    ensures Get(Set(s, key, value), other) == Get(s, other)
  {
  }

  /** After deleting a key, reading it fails; every other key reads as before. */
  lemma GetAfterDel<V>(s: Storage<V>, key: string, other: string)
    ensures Get(Del(s, key), key) == Failure("No such key: " + key)
    ensures other != key ==> Get(Del(s, key), other) == Get(s, other)
  {
  }

  /** Deleting undoes a write to a key that was absent. */
  lemma DelUndoesSet<V>(s: Storage<V>, key: string, value: V)
    requires key !in s.items
    ensures Del(Set(s, key, value), key) == s
  {
    assert Del(Set(s, key, value), key).items == s.items;
  }

  /** Writing the value a key already holds changes nothing. */
  lemma SetCurrentValueIsNoop<V>(s: Storage<V>, key: string)
    requires key in s.items
    ensures Set(s, key, s.items[key]) == s
  {
    assert Set(s, key, s.items[key]).items == s.items;
  }
}

=== FILE: subscriptions.dfy ===
/**
  The subscription registry reducer: a pure map from subscription id to its record, updated by
  the client-side intents (`SUBSCRIBE`, `UNSUBSCRIBE`), the outgoing `sub`/`unsub` messages,
  the server's `ready`/`nosub` replies and the socket's `connect` handshake.
 */
module Subscriptions {
  import opened Wrappers
  import opened Values

  datatype SubState = Pending | Ready | Restoring

  /** `socketId`, `users` and `error` may be absent from a record, as in the JavaScript object. */
  datatype Subscription = Subscription(
    id: string,
    state: SubState,
    name: string,
    params: Value,
    socketId: Option<string>,
    users: Option<int>,
    error: Option<Value>)

  type Registry = map<string, Subscription>

  datatype Action =
    | Subscribe(id: string)
    | Unsubscribe(id: string)
    | Sub(id: string, name: string, params: Value, metaSocketId: Option<string>)
    | Unsub(id: string)
    | NoSub(id: string, error: Option<Value>)
    | ReadyMsg(subs: seq<string>)
    | Connect(metaSocketId: Option<string>)
    | Unrecognised(kind: string)

  /** `users || 0`: a missing count reads as zero. */
  function UsersOf(s: Subscription): int {
    s.users.GetOr(0)
  }

  /** `SUBSCRIBE` adds one user. The JavaScript reads `state[id].users` unguarded, so an id
      that is not registered throws a TypeError instead of producing a state. */
  function OnSubscribe(m: Registry, id: string): (r: Result<Registry>)
    ensures r.Failure? <==> id !in m
    ensures r.Success? ==> r.value.Keys == m.Keys
    ensures r.Success? ==> UsersOf(r.value[id]) == UsersOf(m[id]) + 1
    ensures r.Success? ==> r.value[id] == m[id].(users := r.value[id].users)
    ensures r.Success? ==> forall k :: k in m && k != id ==> r.value[k] == m[k]
  {
    if id !in m then Failure("TypeError: Cannot read property 'users' of undefined")
    else Success(m[id := m[id].(users := Some(UsersOf(m[id]) + 1))])
  }

  /** `UNSUBSCRIBE` removes one user from a registered id; the count is not floored at zero. */
  function OnUnsubscribe(m: Registry, id: string): (r: Registry)
    ensures id !in m ==> r == m
    ensures r.Keys == m.Keys
    ensures id in m ==> UsersOf(r[id]) == UsersOf(m[id]) - 1 && r[id] == m[id].(users := r[id].users)
    ensures forall k :: k in m && k != id ==> r[k] == m[k]
  {
    if id in m then m[id := m[id].(users := Some(UsersOf(m[id]) - 1))] else m
  }

  /** The socket id a `sub` records: only a present, non-empty `meta.socketId` is kept. */
  function KeptSocketId(metaSocketId: Option<string>): Option<string> {
    if metaSocketId.Some? && metaSocketId.value != "" then metaSocketId else None
  }

  /** `SUB` installs a fresh pending record, replacing whatever the id held before. */
  function OnSub(m: Registry, id: string, name: string, params: Value, metaSocketId: Option<string>)
    : (r: Registry)
    ensures r.Keys == m.Keys + {id}
    ensures r[id].id == id && r[id].state == Pending && r[id].name == name && r[id].params == params
    ensures r[id].users.None? && r[id].error.None?
    ensures r[id].socketId.Some? <==> metaSocketId.Some? && metaSocketId.value != ""
    ensures r[id].socketId.Some? ==> r[id].socketId == metaSocketId
    ensures forall k :: k in m && k != id ==> r[k] == m[k]
  {
    m[id := Subscription(id, Pending, name, params, KeptSocketId(metaSocketId), None, None)]
  }

  /** `UNSUB` drops exactly one id. */
  function OnUnsub(m: Registry, id: string): (r: Registry)
    ensures r.Keys == m.Keys - {id}
    ensures forall k :: k in r ==> r[k] == m[k]
  {
    m - {id}
  }

  /** `NOSUB` marks a registered id ready with the server's error (which may be absent);
      an unknown id leaves the registry as it is. */
  function OnNoSub(m: Registry, id: string, error: Option<Value>): (r: Registry)
    ensures r.Keys == m.Keys
    ensures id in m ==> r[id] == m[id].(state := Ready, error := error)
    ensures forall k :: k in m && k != id ==> r[k] == m[k]
    ensures id !in m ==> r == m
  {
    map k | k in m :: if k == id then m[k].(state := Ready, error := error) else m[k]
  }

  /** `READY` marks every registered id listed in `subs` ready. */
  function OnReady(m: Registry, subs: seq<string>): (r: Registry)
    ensures r.Keys == m.Keys
    ensures forall k :: k in m && k in subs ==> r[k] == m[k].(state := Ready)
    ensures forall k :: k in m && k !in subs ==> r[k] == m[k]
  {
    map k | k in m :: if k in subs then m[k].(state := Ready) else m[k]
  }

  /** On `CONNECT` of a socket, its ready subscriptions must be restored; pending and
      restoring ones, and those of other sockets, stay as they are. A missing `meta.socketId`
      matches exactly the records that have no socket id. */
  function OnConnect(m: Registry, socketId: Option<string>): (r: Registry)
    ensures r.Keys == m.Keys
    ensures forall k :: k in m ==>
      r[k] == (if m[k].socketId == socketId && m[k].state == Ready then m[k].(state := Restoring) else m[k])
  {
    map k | k in m :: if m[k].socketId == socketId && m[k].state == Ready then m[k].(state := Restoring) else m[k]
  }

  /** The reducer: one action applied to the registry. */
  function Reduce(m: Registry, a: Action): (r: Result<Registry>)
    ensures r.Failure? <==> a.Subscribe? && a.id !in m
    ensures a.Unrecognised? ==> r == Success(m)
  {
    match a
    case Subscribe(id) => OnSubscribe(m, id)
    case Unsubscribe(id) => Success(OnUnsubscribe(m, id))
    case Sub(id, name, params, socketId) => Success(OnSub(m, id, name, params, socketId))
    case Unsub(id) => Success(OnUnsub(m, id))
    case NoSub(id, error) => Success(OnNoSub(m, id, error))
    case ReadyMsg(subs) => Success(OnReady(m, subs))
    case Connect(socketId) => Success(OnConnect(m, socketId))
    case Unrecognised(_) => Success(m)
  }

  // ---------------------------------------------------------------------------
  // Properties relating several actions

  /** Subscribing and then unsubscribing the same id restores its user count and record. */
  lemma SubscribeThenUnsubscribe(m: Registry, id: string)
    requires id in m
    ensures OnSubscribe(m, id).Success?
    ensures var r := OnUnsubscribe(OnSubscribe(m, id).value, id);
      r.Keys == m.Keys && UsersOf(r[id]) == UsersOf(m[id])
      && (m[id].users.Some? ==> r == m)
  {
    var r := OnUnsubscribe(OnSubscribe(m, id).value, id);
    if m[id].users.Some? {
      assert r[id] == m[id];
      assert forall k :: k in m ==> r[k] == m[k];
    }
  }

  /** A `sub` followed by its `unsub` leaves no trace of the id, and nothing else changes. */
  lemma SubThenUnsub(m: Registry, id: string, name: string, params: Value, socketId: Option<string>)
    ensures OnUnsub(OnSub(m, id, name, params, socketId), id) == m - {id}
  {
  }

  /** `READY` is idempotent. */
  lemma ReadyIdempotent(m: Registry, subs: seq<string>)
    ensures OnReady(OnReady(m, subs), subs) == OnReady(m, subs)
  {
  }

  /** The life cycle of one subscription across a reconnect: after `sub` and `ready` it is
      ready; the socket's `connect` puts it in restoring; the next `ready` makes it ready again. */
  lemma ReconnectRestoresSubscription(m: Registry, id: string, name: string, params: Value, socketId: string)
    requires socketId != ""
    ensures var ready := OnReady(OnSub(m, id, name, params, Some(socketId)), [id]);
      && ready[id].state == Ready
      && OnConnect(ready, Some(socketId))[id].state == Restoring
      && OnReady(OnConnect(ready, Some(socketId)), [id])[id] == ready[id]
  {
  }

  /** `CONNECT` of one socket and `CONNECT` of another commute and neither touches the
      other's subscriptions. */
  lemma ConnectsOfDistinctSocketsCommute(m: Registry, s1: Option<string>, s2: Option<string>)
    requires s1 != s2
    ensures OnConnect(OnConnect(m, s1), s2) == OnConnect(OnConnect(m, s2), s1)
  {
    var a := OnConnect(OnConnect(m, s1), s2);
    var b := OnConnect(OnConnect(m, s2), s1);
    forall k | k in m
      ensures a[k] == b[k]
    {
      var once1 := OnConnect(m, s1);
      var once2 := OnConnect(m, s2);
      assert a[k] == (if once1[k].socketId == s2 && once1[k].state == Ready then once1[k].(state := Restoring) else once1[k]);
      assert b[k] == (if once2[k].socketId == s1 && once2[k].state == Ready then once2[k].(state := Restoring) else once2[k]);
    }
    assert a.Keys == b.Keys;
  }

  /** No reply from the server ever creates a subscription: `ready`, `nosub` and `connect`
      only rewrite existing records, never adding one, and never touch users or parameters. */
  lemma ServerRepliesKeepIdentity(m: Registry, a: Action, k: string)
    requires a.ReadyMsg? || a.NoSub? || a.Connect?
    requires k in m
    ensures Reduce(m, a).Success? && Reduce(m, a).value.Keys == m.Keys
    ensures var s := Reduce(m, a).value[k];
      s.id == m[k].id && s.name == m[k].name && s.params == m[k].params
      && s.socketId == m[k].socketId && s.users == m[k].users
  {
  }
}

=== FILE: values.dfy ===
/**
  The kinds of JavaScript value the client inspects. Numbers are modelled as integers; only
  the distinctions the client's branches make (falsy or not, object or string or other) matter.
 */
module Values {

  datatype Value =
    | Undefined
    | Null
    | Bool(b: bool)
    | Num(n: int)
    | Str(s: string)
    | Arr(items: seq<Value>)
    | Obj(fields: map<string, Value>)
    | Callable                 // a function: `typeof` is neither 'object' nor 'string'
    | ErrorObject(err: DDPError) // an instance of the DDPError class

  /** The normalised protocol error `{error, reason, details}`. */
  datatype DDPError = DDPError(error: Value, reason: Value, details: Value)

  /** The empty error `new DDPError()`: every field is undefined. */
  const EmptyError: DDPError := DDPError(Undefined, Undefined, Undefined)

  /** JavaScript truthiness: `undefined`, `null`, `false`, `0` and `''` are falsy. */
  predicate Falsy(v: Value) {
    v.Undefined? || v.Null? || v == Bool(false) || v == Num(0) || v == Str("")
  }

  /** `typeof v === 'object'` for a non-null value (plain objects, arrays and class instances). */
  predicate IsObject(v: Value) {
    v.Arr? || v.Obj? || v.ErrorObject?
  }

  /** Property read `v[key]` on an object; a missing property reads as `undefined`. */
  function Field(v: Value, key: string): Value {
    match v
    case Obj(fields) => if key in fields then fields[key] else Undefined
    case ErrorObject(e) =>
      if key == "error" then e.error
      else if key == "reason" then e.reason
      else if key == "details" then e.details
      else Undefined
    case _ => Undefined
  }
}

=== FILE: wrappers.dfy ===
/** Option and Result values used in place of JavaScript's `undefined` and thrown errors. */
module Wrappers {

  datatype Option<+T> = None | Some(value: T) {
    function GetOr(default: T): T {
      match this
      case Some(v) => v
      case None => default
    }
  }

  /** A synchronous stand-in for a call that either returns or throws / rejects. */
  datatype Result<+R> = Success(value: R) | Failure(message: string)
}
